=== FILE: README.md ===
# Three-phase log-analysis workflow controller

This project models the controller of an AWS Lambda function. The function
runs a three-phase NIST compliance analysis of an uploaded log file, using an
external LLM service. Each Lambda invocation is modelled as one pure step:

    LambdaHandler(event, bucket, environment) -> (response, bucket', scheduled triggers)

- An S3 upload notification starts phase 1. The step:
  - reads the source object and stages a local copy under `/tmp`;
  - uploads the document to the analysis service and polls its readiness up
    to ten times;
  - queries the service and validates the reply;
  - writes `iteration1/log_analysis_{ts}.json` and
    `workflow_{ts}_metadata.json` to the target bucket;
  - schedules an asynchronous self-invocation `{"iteration": 2, ...}`.
- A continuation event with `iteration == 2` handles phase 2. It loads the
  phase-1 artifact, writes `iteration2/...`, bumps `iterations_completed` in
  the metadata and schedules phase 3.
- Phase 3 loads the phase-2 artifact and writes `final/...`. It then marks the
  metadata completed, with a completion timestamp.
- Any other iteration number is answered with 400 and has no effect.
- Every raise is caught and answered with 500. Writes made before the raise
  stay in the bucket.

The target bucket is a `map<string, Value>`. A `Value` is either a document
the handler wrote with `json.dumps`, which reads back unchanged, or a raw body
that the environment's parser decodes. Everything outside the process is a
field of `Service.Env`:
- readability of the source object;
- the upload, status-poll and query replies;
- `json.loads` on foreign text;
- two clock readings;
- the set of present keys whose `get_object` raises;
- the set of keys whose `put_object` raises;
- whether `lambda.invoke` raises.

Modules, in dependency order:
- `Wrappers` holds `Option` and `Result`.
- `JsonValue` holds decoded JSON values.
- `Faults` lists the ways a step can raise.
- `Text` holds `str(int)` with its inverse, and `os.path.basename`.
- `Bucket` holds the key layout and get/put.
- `Records` holds the artifact and metadata builders.
- `Service` holds the reply accessors and the readiness poll.
- `Workflow` holds the handler itself.
- `WorkflowProperties` holds the lemmas relating several steps.

## Model

| member | source | states |
|---|---|---|
| Text.Basename | code/securegpt_lambda_handler.py:58 | the document name contains no `/`, is a suffix of the uploaded key, and is preceded there by a `/` when shorter than the key |
| Text.Digits | code/securegpt_lambda_handler.py:119 | the decimal rendering of a timestamp is a non-empty digit string, with a leading zero only for zero |
| Text.DigitsRoundTrip | code/securegpt_lambda_handler.py:119 | reading back the printed digits gives the number |
| Text.IntText | code/securegpt_lambda_handler.py:119 | `str(n)` starts with `-` exactly for negative `n` |
| Text.IntTextRoundTrip | code/securegpt_lambda_handler.py:119 | `str(n)` parsed back is `n` |
| Text.IntTextInjective | code/securegpt_lambda_handler.py:119 | two timestamps render alike if and only if they are equal, so distinct timestamps address distinct keys (two uploads in the same second share one timestamp; see `WorkflowProperties.SameSecondUploadsCollide`) |
| Bucket.Iteration1KeyParse | code/securegpt_lambda_handler.py:119 | the `iteration1/log_analysis_{ts}.json` key addresses exactly the stamp it was built from: reading the stamp back from a key of that shape gives `ts`, and only that stamp builds that key |
| Bucket.Iteration2KeyParse | code/securegpt_lambda_handler.py:187 | the same bijection for the `iteration2/` artifact key |
| Bucket.FinalKeyParse | code/securegpt_lambda_handler.py:238 | the same bijection for the `final/` artifact key |
| Bucket.MetadataKeyParse | code/securegpt_lambda_handler.py:135 | the `workflow_{ts}_metadata.json` key addresses exactly the stamp it was built from, in both directions |
| Bucket.KeysDistinct | code/securegpt_lambda_handler.py:119-135 | keys of different kinds (iteration1, iteration2, final, metadata) never collide; keys of one kind collide exactly when the stamps agree |
| Bucket.JobKeysDistinct | code/securegpt_lambda_handler.py:119-135 | the four keys of one job are pairwise distinct |
| Bucket.JobKeysDisjoint | code/securegpt_lambda_handler.py:119-135 | jobs with different stamps share no key |
| Bucket.Load | code/securegpt_lambda_handler.py:175-179 | a missing key raises NoSuchKey; a present key whose read fails raises GetFailed; otherwise a document the handler wrote reads back unchanged; the only other failure is an undecodable body |
| Bucket.Put | code/securegpt_lambda_handler.py:117-122 | a put raises exactly when the key is failing and then changes nothing; otherwise only that key changes and it holds the document |
| Bucket.TwoWrites | code/securegpt_lambda_handler.py:117-138 | after two writes to different keys both documents read back, and nothing else changed |
| Bucket.WritesOnlyTrans | code/securegpt_lambda_handler.py:185-205 | footprints of successive writes compose by union |
| Records.ErrorHandler | code/securegpt_lambda_handler.py:468-475 | the error record has exactly the keys error, details and timestamp, holding the context, the message and the clock reading `now` |
| Records.ValidateAnalysis | code/securegpt_lambda_handler.py:434-446 | the result is an error record if and only if decoding the reply raises; on success it has exactly four keys, holding the decoded data, the filename, status PRELIMINARY and the clock reading; on failure it is the error record for "Validation failed" with the decoder's message and the clock reading |
| Records.FirstAnalysisOfValidated | code/securegpt_lambda_handler.py:345 | the first analysis phase 2 reads from a phase-1 artifact is the decoded reply, or "" when validation failed |
| Records.CrossValidateResults | code/securegpt_lambda_handler.py:448-457 | the phase-2 artifact has exactly five keys and carries both analyses and the filename unchanged, `cross_validation` COMPLETED and the clock reading |
| Records.GenerateFinalReport | code/securegpt_lambda_handler.py:459-466 | the final report has exactly three keys and carries the third reply, the filename unchanged and the clock reading |
| Records.InitialMetadata | code/securegpt_lambda_handler.py:125-131 | the new metadata records file, bucket and timestamp, and is at progress 1, not completed and consistent |
| Records.MarkIteration2 | code/securegpt_lambda_handler.py:198 | progress becomes 2 and nothing else changes; the result is consistent if and only if the job was not already completed |
| Records.MarkCompleted | code/securegpt_lambda_handler.py:249-251 | progress becomes 3, the job is completed with the given completion time, and only those three fields change |
| Service.PollFrom | code/securegpt_lambda_handler.py:98-108 | a confirmation names an attempt after the start and within ten; a failure names an attempt within range |
| Service.PollConfirmedReads | code/securegpt_lambda_handler.py:98-108 | a confirmed poll saw "processed" at its last attempt and a pending status before it |
| Service.PollUnconfirmedReads | code/securegpt_lambda_handler.py:98-108 | an unconfirmed poll saw a pending status at every one of the ten attempts |
| Service.PollFailedReads | code/securegpt_lambda_handler.py:98-108 | a failed poll raised on an unreadable reply after only pending replies |
| Service.AwaitReadyUnconfirmedIff | code/securegpt_lambda_handler.py:98-108 | the poll gives up exactly when all ten replies were well-formed and none said "processed" |
| Service.AwaitReadyConfirmedIff | code/securegpt_lambda_handler.py:98-108 | the poll confirms at attempt n if and only if n is within ten, reply n-1 is "processed" and every earlier reply is pending |
| Service.PollLoop | code/securegpt_lambda_handler.py:98-108 | the loop computes the same readiness as the recursive definition, within ten attempts |
| Workflow.LambdaHandler | code/securegpt_lambda_handler.py:28-47 | every response is 200, 400 or 500; at most one continuation is scheduled, for phase 2 or 3, and only with 200; a 400 leaves the bucket unchanged |
| Workflow.StartWorkflow | code/securegpt_lambda_handler.py:49-162 | 200 if and only if phase 2 is scheduled, with the clock timestamp and the basename, and only for a basename that can be staged under `/tmp` (:59-61); 400 changes nothing; only the job's iteration1 and metadata keys are written; a failing artifact put leaves the bucket unchanged; a written metadata record is the initial one, and is written only after this invocation's artifact put succeeded and stored the validated reply |
| Workflow.RunPhase1 | code/securegpt_lambda_handler.py:110-155 | the same guarantees from the point where the poll returns without raising: a failing artifact put changes nothing, and the metadata is written only after the artifact put stored the validated reply |
| Workflow.CommitPhase1 | code/securegpt_lambda_handler.py:117-155 | the two puts and the invoke: 200 if and only if the continuation is scheduled; a failing artifact put raises PutFailed with the bucket unchanged; the metadata changes only when this artifact put succeeded, and the artifact key then holds this artifact; after the artifact put succeeded, a failing metadata put gives 500 with the artifact kept, and otherwise both documents stay whether or not the invoke then raises (500 with nothing scheduled) |
| Workflow.HandleIteration | code/securegpt_lambda_handler.py:164-276 | 400 exactly for a complete event with an unknown iteration number, and then nothing changes; only phase 2 schedules, and it schedules phase 3 for the same job; writes stay within the job's iteration2, final and metadata keys |
| Workflow.LoadMetadata | code/securegpt_lambda_handler.py:193-197 | a missing metadata object raises NoSuchKey; a written object reads back unless its read fails; the only failures are missing, a failing read (GetFailed), undecodable or not an object |
| Workflow.Phase2 | code/securegpt_lambda_handler.py:173-222 | 200 if and only if phase 3 is scheduled; a missing phase-1 artifact fails with no effect; only the iteration2 and metadata keys change, and only when the phase-1 artifact exists; a failing iteration2 put changes nothing; updated metadata is at progress 2 and is written only after this invocation stored the cross-validation of the phase-1 analysis and the reply |
| Workflow.CommitPhase2 | code/securegpt_lambda_handler.py:185-222 | the footprint of phase 2's puts and invoke; a failing artifact put raises PutFailed for iteration 2 with the bucket unchanged; the metadata advances to progress 2 only when this artifact put succeeded and stored this artifact; once the artifact put succeeded the artifact stays through every later failure: an unreadable metadata record or a failing metadata put gives 500 with only the artifact written, and a raising invoke gives 500 with both documents written; failures report iteration 2 |
| Workflow.Phase3 | code/securegpt_lambda_handler.py:224-263 | never schedules; a missing phase-2 artifact fails with no effect; only the final and metadata keys change; a failing final put changes nothing; updated metadata is completed at progress 3 and is written only after this invocation stored the final report built from the reply |
| Workflow.CommitPhase3 | code/securegpt_lambda_handler.py:236-263 | the footprint of phase 3's puts; a failing report put raises PutFailed for iteration 3 with the bucket unchanged; the metadata is marked completed only when this report put succeeded and stored this report; once the report put succeeded the report stays: an unreadable metadata record or a failing metadata put gives 500 with only the report written, and otherwise the completed metadata is written and the answer is 200; failures report iteration 3 |
| WorkflowProperties.RoutesContinueEvent | code/securegpt_lambda_handler.py:32-33 | an object event holding `iteration` goes to the continuation handler |
| WorkflowProperties.RoutesUploadEvent | code/securegpt_lambda_handler.py:36-40 | an S3 notification starts the workflow with its bucket name and object key |
| WorkflowProperties.RoutesNotification | code/securegpt_lambda_handler.py:32-40 | every object event without `iteration` whose subscript chain yields a bucket and a key starts the workflow with them, whatever other fields it carries |
| WorkflowProperties.S3LocationOfNotification | code/securegpt_lambda_handler.py:36-37 | the subscript chain reads the bucket name and object key of the first record, whatever other fields the event, the record, its `s3` part, the bucket and the object carry, and whatever records follow |
| WorkflowProperties.StampTextOfTimestamp | code/securegpt_lambda_handler.py:177 | the `str(timestamp)` a continuation interpolates into its keys reads back as the phase-1 timestamp, and the same number sent as a string addresses the same keys |
| WorkflowProperties.MalformedEventHasNoEffect | code/securegpt_lambda_handler.py:36-47 | an event that is neither a continuation nor an S3 notification gets 500 and changes nothing |
| WorkflowProperties.UploadRejectedHasNoEffect | code/securegpt_lambda_handler.py:83-87 | an upload reply whose status code is not 200 gives 400, echoes the reply and writes nothing |
| WorkflowProperties.ReadinessDoesNotGateAnalysis | code/securegpt_lambda_handler.py:97-111 | whether the document was confirmed ready or not, the step's outcome is the same |
| WorkflowProperties.StartStopsEarlyIgnoringPoll | code/securegpt_lambda_handler.py:51-108 | the same, when the step stops before phase 1 runs |
| WorkflowProperties.RunPhase1IgnoresPoll | code/securegpt_lambda_handler.py:110-155 | the phase-1 commit does not depend on the status replies |
| WorkflowProperties.CommitPhase1IgnoresPoll | code/securegpt_lambda_handler.py:117-155 | the two puts and the invoke do not depend on the status replies |
| WorkflowProperties.StartSuccess | code/securegpt_lambda_handler.py:49-162 | the start answers 200 if and only if the source was read and staged, the upload was accepted, the poll did not raise, the query replied, both puts and the invoke succeeded; it then writes exactly the two documents and schedules phase 2 |
| WorkflowProperties.StartReachesPhase1 | code/securegpt_lambda_handler.py:51-114 | once the upload is accepted and the poll did not raise, the start is phase 1 on the basename |
| WorkflowProperties.StartStopsEarly | code/securegpt_lambda_handler.py:51-108 | a bad event field, an unreadable source, a basename that cannot be staged, a rejected upload or a raising poll never gives 200 |
| WorkflowProperties.RunPhase1Success | code/securegpt_lambda_handler.py:110-155 | phase 1 answers 200 if and only if the query replied and both puts and the invoke succeeded, and then produces exactly the two documents and the phase-2 trigger |
| WorkflowProperties.Phase1InvokeFailsStrandsJob | code/securegpt_lambda_handler.py:117-162 | when the invoke raises after both puts, phase 1 answers 500 and schedules nothing, yet the artifact and the metadata at progress 1 stay in the bucket |
| WorkflowProperties.ContinueDispatch | code/securegpt_lambda_handler.py:164-269 | a complete continuation runs phase 2 for iteration 2, phase 3 for iteration 3, and otherwise gives 400 with no effect |
| WorkflowProperties.InvalidPhaseHasNoEffect | code/securegpt_lambda_handler.py:265-269 | an unknown iteration number gives 400, echoes the number and changes nothing |
| WorkflowProperties.IncompleteContinueEventFails | code/securegpt_lambda_handler.py:166-168 | a continuation missing its timestamp or filename gives 500 from the outer handler and changes nothing |
| WorkflowProperties.Phase2NeedsPredecessor | code/securegpt_lambda_handler.py:175-179 | phase 2 without a phase-1 artifact fails with NoSuchKey and changes nothing |
| WorkflowProperties.Phase3NeedsPredecessor | code/securegpt_lambda_handler.py:226-230 | phase 3 without a phase-2 artifact fails with NoSuchKey and changes nothing |
| WorkflowProperties.MetadataUnaffectedByArtifact | code/securegpt_lambda_handler.py:185-197 | writing the phase-2 or final artifact does not change what the metadata read returns |
| WorkflowProperties.Phase2Success | code/securegpt_lambda_handler.py:173-222 | phase 2 answers 200 if and only if the phase-1 artifact is read and decodes to an object, the query replied, the metadata decodes to an object, and both puts and the invoke succeed; it then writes exactly the artifact and the updated metadata |
| WorkflowProperties.Phase2MetadataUnreadable | code/securegpt_lambda_handler.py:185-205 | when the metadata cannot be read, phase 2 fails but its artifact stays written |
| WorkflowProperties.Phase2InvokeFailsStrandsJob | code/securegpt_lambda_handler.py:185-222 | when the invoke raises after both puts, phase 2 answers 500 and schedules nothing, yet its artifact and the metadata at progress 2 stay in the bucket, so phase 3 never runs |
| WorkflowProperties.Phase3Success | code/securegpt_lambda_handler.py:224-263 | phase 3 answers 200 if and only if the phase-2 artifact is read and decodes, the query replied, the metadata decodes to an object and both puts succeed; it then writes exactly the report and the completed metadata |
| WorkflowProperties.Phase3MetadataNotUpdated | code/securegpt_lambda_handler.py:236-263 | when phase 3 cannot read or cannot write the metadata, it answers 500 with the report kept under `final/`, the metadata unchanged and the job never marked completed |
| WorkflowProperties.StartTriggerCommitted | code/securegpt_lambda_handler.py:117-150 | when the start schedules phase 2, the phase-1 artifact is stored and the metadata says 1 |
| WorkflowProperties.Phase1Committed | code/securegpt_lambda_handler.py:117-150 | the successful phase-1 outcome has its artifact and metadata at progress 1 in place for the trigger it carries |
| WorkflowProperties.FirstWritesCommitted | code/securegpt_lambda_handler.py:117-138 | writing the artifact and then metadata at progress 1 satisfies the phase-2 precondition |
| WorkflowProperties.Phase2TriggerCommitted | code/securegpt_lambda_handler.py:185-217 | when phase 2 schedules phase 3, both earlier artifacts are stored and the metadata says 2 |
| WorkflowProperties.TriggerImpliesCommitted | code/securegpt_lambda_handler.py:28-276 | every scheduled continuation finds its predecessor artifacts and matching progress in the bucket |
| WorkflowProperties.UntouchedJob | code/securegpt_lambda_handler.py:117-258 | a step writing none of a job's keys keeps the job's invariant |
| WorkflowProperties.UnchangedProgress | code/securegpt_lambda_handler.py:200-205 | progress read from unchanged metadata is unchanged |
| WorkflowProperties.OtherJobStep | code/securegpt_lambda_handler.py:117-258 | a step confined to another job's keys keeps this job's invariant |
| WorkflowProperties.SameJobStep | code/securegpt_lambda_handler.py:117-258 | a phase-n step that writes after its predecessor exists, and updates metadata only after its own artifact, keeps the invariant |
| WorkflowProperties.StartPreservesJob | code/securegpt_lambda_handler.py:49-162 | the start keeps every job's invariant: artifacts appear in phase order and progress never names a missing artifact |
| WorkflowProperties.Phase2PreservesJob | code/securegpt_lambda_handler.py:173-222 | phase 2 keeps every job's invariant |
| WorkflowProperties.Phase3PreservesJob | code/securegpt_lambda_handler.py:224-263 | phase 3 keeps every job's invariant |
| WorkflowProperties.StepPreservesJobInvariant | code/securegpt_lambda_handler.py:28-276 | every invocation, whatever the event or the failures, keeps every job's invariant |
| WorkflowProperties.StepTouchesOneJob | code/securegpt_lambda_handler.py:28-276 | every invocation writes only keys of the single job its event names |
| WorkflowProperties.RedeliveredPhase2RegressesProgress | code/securegpt_lambda_handler.py:193-205 | a phase-2 trigger delivered again after completion leaves metadata marked completed at progress 2 |
| WorkflowProperties.Phase2KeepsMetadataConsistent | code/securegpt_lambda_handler.py:193-205 | phase 2 on a job not yet completed leaves the metadata consistent |
| WorkflowProperties.Phase3KeepsMetadataConsistent | code/securegpt_lambda_handler.py:243-258 | a successful phase 3 leaves the metadata completed and consistent |
| WorkflowProperties.RunStage1 | code/securegpt_lambda_handler.py:28-162 | with a cooperative environment the upload event stores the validated artifact and the initial metadata, and schedules phase 2 |
| WorkflowProperties.SameSecondUploadsCollide | code/securegpt_lambda_handler.py:111-138 | two uploads started in the same second share the job's keys: the later start overwrites the earlier job's metadata with its own file and bucket |
| WorkflowProperties.StartStage | code/securegpt_lambda_handler.py:49-162 | the same, stated about the start of the workflow |
| WorkflowProperties.RunStage2 | code/securegpt_lambda_handler.py:164-222 | delivering the phase-2 trigger stores the cross-validation of the phase-1 analysis and metadata at progress 2, and schedules phase 3 |
| WorkflowProperties.Phase2Stage | code/securegpt_lambda_handler.py:173-222 | the same, stated about phase 2 |
| WorkflowProperties.RunStage3 | code/securegpt_lambda_handler.py:164-263 | delivering the phase-3 trigger stores the final report and completed metadata, and schedules nothing |
| WorkflowProperties.Phase3Stage | code/securegpt_lambda_handler.py:224-263 | the same, stated about phase 3 |
| WorkflowProperties.FinishedMetadata | code/securegpt_lambda_handler.py:125-131 | metadata carried through all three phases is completed at progress 3 and keeps file, bucket and timestamp |
| WorkflowProperties.ComposeStages | code/securegpt_lambda_handler.py:117-258 | the three phases' footprints compose to the job's four keys, all present, and phase 3 leaves the phase-2 artifact intact |
| WorkflowProperties.ThreePhaseRunResponses | code/securegpt_lambda_handler.py:28-276 | an upload followed by the two delivered continuations answers 200 three times and ends with nothing scheduled |
| WorkflowProperties.ThreePhaseRun | code/securegpt_lambda_handler.py:28-276 | the full run writes exactly the job's four keys; the phase-2 artifact carries the first phase's decoded analysis |
| WorkflowProperties.ThreePhaseRunMetadata | code/securegpt_lambda_handler.py:28-276 | after the full run the metadata is completed, consistent, at progress 3, with the original file, timestamp and completion time |

## Left out

- Network and SDK calls (`boto3`, `requests`) are fields of the environment.
  The model does not include the request parameters, the endpoint URLs, the
  headers or `verify=False`.
- The `/tmp` copy of the source object (lines 57-81) is modelled only by
  the names `open` always refuses: the empty basename of a key ending in
  `/`, `.`, `..`, and a name holding a NUL. Other operating-system failures
  are not modelled: a name longer than 255 bytes, a full disk, and a failing
  `os.remove`. A key that hits one of them still gets 200 in the model.
- Creating the `boto3` clients (lines 53, 141, 171, 208) is not modelled as a
  possible raise. A failing `lambda` client (lines 141, 208) has the same
  effect as a failing `invoke`, which is modelled. A failing `s3` client at
  line 53 has the same effect as an unreadable source, which is modelled. For
  phases 2 and 3, a failing `s3` client at line 171 has the same effect as a
  failing first read, which is modelled.
- HandleIteration: assumes the `s3` client of line 171 is created. That client
  is created before the phase number is examined, so when its creation raises,
  an unknown phase number gets a 500 `IterationFailed` (lines 271-276), not
  the 400 the contract states.
- InvalidPhaseHasNoEffect: states the 400 under the same assumption about the
  `s3` client of line 171.
- The content of the source log is not modelled; only its readability is.
- `time.sleep` between polls is not modelled. `time.time()` is two clock
  readings per invocation, in the order the code takes them.
- The prompt texts (lines 282-429) are not modelled. One query reply per
  invocation stands for the phase's query.
- `json.dumps` is not modelled as text. A document the handler wrote is
  stored structurally and reads back unchanged. Foreign bodies go through a
  parser supplied by the environment.
- JSON floating-point numbers are not modelled. In particular an
  `iteration` of `2.0`, which Python compares equal to `2`, is not.
- Exception message texts are not modelled. Each raise is a `Faults.Fault`
  naming its cause. Response bodies are reduced to the message kind in
  `Workflow.Body`.
- `print` logging and `context.function_name` are left out.
- Concurrency and the platform's at-least-once delivery of asynchronous
  invocations are left out. A run is a sequence of steps, and a redelivery
  is a repeated step.
- Workflow.StampText: a timestamp that is a list or an object is rendered
  as a fixed marker, not as Python's `repr`.
- Facts about the code that the model keeps as written:
  - The third artifact is written under `final/`, not `iteration3/`.
  - Readiness polling does not gate the analysis.
  - The NIST category list stored in the metadata has six entries.
  - Artifacts are overwritten when a trigger is delivered again.
  - The phase-2 and phase-3 artifacts wrap the raw service replies as they
    are. They do not compute findings or statistics.
- A job's stamp is the current second. Two uploads in the same second share
  all four keys, and the later one overwrites the earlier job's records.
  `WorkflowProperties.SameSecondUploadsCollide` states this. It is how the
  code behaves, so the model keeps it.
- A phase-2 trigger delivered again after completion leaves metadata that is
  completed at progress 2. `WorkflowProperties.RedeliveredPhase2RegressesProgress`
  states this. It is how the code behaves, so the model keeps it.

=== FILE: bucket.dfy ===
/** The target bucket: the keys the workflow addresses, and the get/put
    primitives with the ways they raise. */
module Bucket {
  import opened Wrappers
  import opened JsonValue
  import opened Faults

  /** A stored object body. `Doc` is a body the handler wrote with
      `json.dumps`, which `json.loads` gives back unchanged; `Raw` is any
      other body, decoded on read by the environment's parser. */
  datatype Value = Doc(json: Json) | Raw(text: string)

  /** The bucket: object key to body. */
  type Store = map<string, Value>

  /** `{dir}/log_analysis_{stamp}.json`. */
  function ArtifactKey(dir: string, stamp: string): string
  {
    dir + "/log_analysis_" + stamp + ".json"
  }

  function Iteration1Key(stamp: string): string { ArtifactKey("iteration1", stamp) }
  function Iteration2Key(stamp: string): string { ArtifactKey("iteration2", stamp) }
  /** The third phase writes under `final/`, not `iteration3/`. */
  function FinalKey(stamp: string): string { ArtifactKey("final", stamp) }

  /** `workflow_{stamp}_metadata.json`. */
  function MetadataKey(stamp: string): string
  {
    "workflow_" + stamp + "_metadata.json"
  }

  /** The artifact key of phase `n` of the job stamped `stamp`. */
  function PhaseKey(stamp: string, n: int): string
    requires 1 <= n <= 3
  {
    if n == 1 then Iteration1Key(stamp) else if n == 2 then Iteration2Key(stamp) else FinalKey(stamp)
  }

  /** The stamp an artifact key under `dir` addresses, if the key has
      the artifact shape. */
  function ArtifactStamp(dir: string, key: string): Option<string>
  {
    var prefix := dir + "/log_analysis_";
    if |key| >= |prefix| + 5 && key[..|prefix|] == prefix && key[|key| - 5..] == ".json"
    then Some(key[|prefix|..|key| - 5])
    else None
  }

  /** The stamp a metadata key addresses, if the key has the metadata shape. */
  function MetadataStamp(key: string): Option<string>
  {
    if |key| >= 9 + 14 && key[..9] == "workflow_" && key[|key| - 14..] == "_metadata.json"
    then Some(key[9..|key| - 14])
    else None
  }

  /** An artifact key addresses exactly the stamp it was built from: the
      key template is a bijection between stamps and keys of that shape. */
  lemma ArtifactKeyParse(dir: string, key: string, stamp: string)
    ensures ArtifactStamp(dir, key) == Some(stamp) <==> key == ArtifactKey(dir, stamp)
  {
    var prefix := dir + "/log_analysis_";
    var built := ArtifactKey(dir, stamp);
    assert built == prefix + stamp + ".json";
    assert built[..|prefix|] == prefix;
    assert built[|built| - 5..] == ".json";
    assert built[|prefix|..|built| - 5] == stamp;
    if ArtifactStamp(dir, key) == Some(stamp) {
      assert key == key[..|prefix|] + key[|prefix|..|key| - 5] + key[|key| - 5..];
    }
  }

  /** The phase-1 artifact key addresses exactly its stamp. */
  lemma Iteration1KeyParse(key: string, stamp: string)
    ensures ArtifactStamp("iteration1", key) == Some(stamp) <==> key == Iteration1Key(stamp)
  {
    ArtifactKeyParse("iteration1", key, stamp);
  }

  /** The phase-2 artifact key addresses exactly its stamp. */
  lemma Iteration2KeyParse(key: string, stamp: string)
    ensures ArtifactStamp("iteration2", key) == Some(stamp) <==> key == Iteration2Key(stamp)
  {
    ArtifactKeyParse("iteration2", key, stamp);
  }

  /** The final report key addresses exactly its stamp. */
  lemma FinalKeyParse(key: string, stamp: string)
    ensures ArtifactStamp("final", key) == Some(stamp) <==> key == FinalKey(stamp)
  {
    ArtifactKeyParse("final", key, stamp);
  }

  /** A metadata key addresses exactly the stamp it was built from. */
  lemma MetadataKeyParse(key: string, stamp: string)
    ensures MetadataStamp(key) == Some(stamp) <==> key == MetadataKey(stamp)
  {
    var built := MetadataKey(stamp);
    assert built[..9] == "workflow_";
    assert built[|built| - 14..] == "_metadata.json";
    assert built[9..|built| - 14] == stamp;
    if MetadataStamp(key) == Some(stamp) {
      assert key == key[..9] + key[9..|key| - 14] + key[|key| - 14..];
    }
  }

  /** Every key a job with this stamp can touch. */
  function JobKeys(stamp: string): set<string>
  {
    {Iteration1Key(stamp), Iteration2Key(stamp), FinalKey(stamp), MetadataKey(stamp)}
  }

  lemma AffixCancel(p: string, s: string, t: string, q: string)
    requires p + s + q == p + t + q
    ensures s == t
  {
    assert |s| == |t|;
    assert s == (p + s + q)[|p|..|p| + |s|];
    assert t == (p + t + q)[|p|..|p| + |t|];
  }

  /** Keys of different kinds never coincide, whatever the stamps, and keys
      of one kind coincide exactly when the stamps do. */
  lemma KeysDistinct(s: string, t: string)
    ensures Iteration1Key(s) != Iteration2Key(t)
    ensures Iteration1Key(s) != FinalKey(t)
    ensures Iteration2Key(s) != FinalKey(t)
    ensures Iteration1Key(s) != MetadataKey(t)
    ensures Iteration2Key(s) != MetadataKey(t)
    ensures FinalKey(s) != MetadataKey(t)
    ensures Iteration1Key(s) == Iteration1Key(t) <==> s == t
    ensures Iteration2Key(s) == Iteration2Key(t) <==> s == t
    ensures FinalKey(s) == FinalKey(t) <==> s == t
    ensures MetadataKey(s) == MetadataKey(t) <==> s == t
  {
    assert Iteration1Key(s)[0] == 'i' && Iteration1Key(s)[9] == '1';
    assert Iteration1Key(t)[0] == 'i';
    assert Iteration2Key(s)[0] == 'i' && Iteration2Key(t)[9] == '2';
    assert FinalKey(s)[0] == 'f' && FinalKey(t)[0] == 'f';
    assert MetadataKey(s)[0] == 'w' && MetadataKey(t)[0] == 'w';
    if Iteration1Key(s) == Iteration1Key(t) {
      assert "iteration1" + "/log_analysis_" == "iteration1/log_analysis_";
      AffixCancel("iteration1/log_analysis_", s, t, ".json");
    }
    if Iteration2Key(s) == Iteration2Key(t) {
      assert "iteration2" + "/log_analysis_" == "iteration2/log_analysis_";
      AffixCancel("iteration2/log_analysis_", s, t, ".json");
    }
    if FinalKey(s) == FinalKey(t) {
      assert "final" + "/log_analysis_" == "final/log_analysis_";
      AffixCancel("final/log_analysis_", s, t, ".json");
    }
    if MetadataKey(s) == MetadataKey(t) {
      AffixCancel("workflow_", s, t, "_metadata.json");
    }
  }

  /** The four keys of one job are pairwise distinct. */
  lemma JobKeysDistinct(s: string)
    ensures Iteration1Key(s) != Iteration2Key(s) && Iteration1Key(s) != FinalKey(s) && Iteration2Key(s) != FinalKey(s)
    ensures Iteration1Key(s) != MetadataKey(s) && Iteration2Key(s) != MetadataKey(s) && FinalKey(s) != MetadataKey(s)
  {
    assert Iteration1Key(s)[0] == 'i' && Iteration1Key(s)[9] == '1';
    assert Iteration2Key(s)[0] == 'i' && Iteration2Key(s)[9] == '2';
    assert FinalKey(s)[0] == 'f';
    assert MetadataKey(s)[0] == 'w';
  }

  /** The key sets of two jobs are disjoint unless their stamps agree. */
  lemma JobKeysDisjoint(s: string, t: string)
    requires s != t
    ensures JobKeys(s) !! JobKeys(t)
  {
    KeysDistinct(s, t);
    KeysDistinct(t, s);
  }

  /** `get_object` followed by `json.loads`: the missing key, a failing
      read of a present key and the undecodable body all raise. */
  function Load(store: Store, key: string, failing: set<string>, parse: string -> Result<Json, string>): (r: Result<Json, Fault>)
    ensures key !in store ==> r == Err(NoSuchKey(key))
    ensures key in store && key in failing ==> r == Err(GetFailed(key))
    ensures key in store && key !in failing && store[key].Doc? ==> r == Ok(store[key].json)
    ensures r.Err? ==> r.error in {NoSuchKey(key), GetFailed(key), Undecodable(key)}
  {
    if key !in store then Err(NoSuchKey(key))
    else if key in failing then Err(GetFailed(key))
    else match store[key]
      case Doc(j) => Ok(j)
      case Raw(text) =>
        match parse(text)
        case Ok(j) => Ok(j)
        case Err(_) => Err(Undecodable(key))
  }

  /** `put_object` of a JSON document: on success the key holds it and no
      other key changes; a key in `failing` raises and changes nothing. */
  function Put(store: Store, key: string, doc: Json, failing: set<string>): (r: Result<Store, Fault>)
    ensures key in failing <==> r.Err?
    ensures r.Err? ==> r.error == PutFailed(key)
    ensures r.Ok? ==> r.value == store[key := Doc(doc)]
    ensures r.Ok? ==> WritesOnly(store, r.value, {key})
  {
    if key in failing then Err(PutFailed(key)) else Ok(store[key := Doc(doc)])
  }

  /** `after` differs from `before` at most at `keys`, and removes nothing. */
  ghost predicate WritesOnly(before: Store, after: Store, keys: set<string>)
  {
    && before.Keys <= after.Keys
    && after.Keys <= before.Keys + keys
    && forall k :: k in before && k !in keys ==> after[k] == before[k]
  }

  /** `key` holds a new body in `after`. */
  ghost predicate Changed(before: Store, after: Store, key: string)
  {
    key in after && (key !in before || after[key] != before[key])
  }

  /** The decoded object stored at `key`, if the handler wrote one there. */
  function StoredObject(store: Store, key: string): Option<map<string, Json>>
  {
    if key in store && store[key].Doc? && store[key].json.JObj? then Some(store[key].json.fields) else None
  }

  lemma WritesOnlyTrans(a: Store, b: Store, c: Store, ks: set<string>, ls: set<string>)
    requires WritesOnly(a, b, ks)
    requires WritesOnly(b, c, ls)
    ensures WritesOnly(a, c, ks + ls)
  {
  }

  /** Two successive writes of objects under different keys: both read
      back, and only those two keys changed. */
  lemma TwoWrites(store: Store, a: string, x: Json, b: string, y: Json)
    requires a != b
    requires x.JObj? && y.JObj?
    ensures
      var s := store[a := Doc(x)][b := Doc(y)];
      && StoredObject(s, a) == Some(x.fields)
      && StoredObject(s, b) == Some(y.fields)
      && WritesOnly(store, s, {a, b})
  {
  }
}

=== FILE: faults.dfy ===
/** The exceptions that can interrupt an invocation of the handler. */
module Faults {

  /** Why an invocation raised. Each case names the call that raised; the
      exception's message text is not modelled. */
  datatype Fault =
    | MalformedEvent          // a subscript on the incoming event failed
    | SourceUnreadable        // reading the uploaded object failed
    | StagingFailed           // writing the local copy under `/tmp` failed
    | ServiceUnavailable      // a request to the analysis service raised or its reply was not JSON
    | ReplyNotAnObject        // `.get` was called on a service reply that is not a JSON object
    | NoSuchKey(key: string)  // `get_object` on a key the bucket does not hold
    | GetFailed(key: string)  // `get_object` on a key the bucket holds raised
    | Undecodable(key: string)  // the stored body is not valid JSON
    | NotAnObject(key: string)  // the stored document is JSON but not an object
    | PutFailed(key: string)  // `put_object` raised
    | InvokeFailed            // the asynchronous self-invocation raised
}

=== FILE: json.dfy ===
/** JSON documents as the handler sees them after `json.loads`. */
module JsonValue {

  /** A decoded JSON value. Objects are Python dicts keyed by string;
      floating-point numbers are not part of this model. */
  datatype Json =
    | JNull
    | JBool(b: bool)
    | JInt(i: int)
    | JStr(s: string)
    | JArr(items: seq<Json>)
    | JObj(fields: map<string, Json>)

  /** `d.get(k)` on a dict: the value, or `None` when the key is absent. */
  function Field(fields: map<string, Json>, k: string): (v: Json)
    ensures k in fields ==> v == fields[k]
    ensures k !in fields ==> v == JNull
  {
    if k in fields then fields[k] else JNull
  }

  /** `d.get(k, default)` on a dict. */
  function FieldOr(fields: map<string, Json>, k: string, default: Json): (v: Json)
    ensures k in fields ==> v == fields[k]
    ensures k !in fields ==> v == default
  {
    if k in fields then fields[k] else default
  }

  /** The Python class name of the decoded value (`type(v).__name__`). */
  function TypeName(v: Json): string
  {
    match v
    case JNull => "NoneType"
    case JBool(_) => "bool"
    case JInt(_) => "int"
    case JStr(_) => "str"
    case JArr(_) => "list"
    case JObj(_) => "dict"
  }
}

=== FILE: properties.dfy ===
/** What the controller guarantees across invocations: routing, the error
    paths that leave no trace, the exact writes of each successful phase,
    the ordering between artifacts, metadata and triggers, and a complete
    run through all three phases. */
module WorkflowProperties {
  import opened Wrappers
  import opened JsonValue
  import opened Faults
  import opened Text
  import opened Bucket
  import opened Records
  import opened Service
  import opened Workflow

  // ---------------------------------------------------------------------
  // Routing

  /** An object event naming an iteration goes to the continuation state
      machine. */
  lemma RoutesContinueEvent(fields: map<string, Json>, store: Store, env: Env)
    requires "iteration" in fields
    ensures LambdaHandler(JObj(fields), store, env) == HandleIteration(fields, store, env)
  {
  }

  /** An upload notification starts a workflow for the notified object. */
  lemma RoutesUploadEvent(bucket: string, key: string, store: Store, env: Env)
    ensures LambdaHandler(UploadEvent(bucket, key), store, env) == StartWorkflow(JStr(bucket), JStr(key), store, env)
  {
    var fields := UploadEvent(bucket, key).fields;
    assert "iteration" !in fields;
    assert S3Location(fields) == Some((JStr(bucket), JStr(key)));
  }

  /** Any object event without an iteration whose subscript chain yields a
      bucket and a key starts a workflow for them, whatever else it holds. */
  lemma RoutesNotification(fields: map<string, Json>, bucket: Json, key: Json, store: Store, env: Env)
    requires "iteration" !in fields
    requires S3Location(fields) == Some((bucket, key))
    ensures LambdaHandler(JObj(fields), store, env) == StartWorkflow(bucket, key, store, env)
  {
  }

  /** A notification record as the platform delivers it: the bucket name
      and object key the handler reads, beside whatever other fields the
      record, its `s3` part, the bucket and the object carry. */
  function NotificationRecord(bucket: Json, key: Json, record: map<string, Json>, s3: map<string, Json>,
                              bucketInfo: map<string, Json>, objectInfo: map<string, Json>): Json
  {
    JObj(record["s3" := JObj(s3["bucket" := JObj(bucketInfo["name" := bucket])]
                             ["object" := JObj(objectInfo["key" := key])])])
  }

  /** The handler takes the bucket and key from the first record of a
      notification, ignoring every other field and every later record. */
  lemma S3LocationOfNotification(fields: map<string, Json>, bucket: Json, key: Json, record: map<string, Json>,
                                 s3: map<string, Json>, bucketInfo: map<string, Json>, objectInfo: map<string, Json>,
                                 rest: seq<Json>)
    requires "Records" in fields
    requires fields["Records"] == JArr([NotificationRecord(bucket, key, record, s3, bucketInfo, objectInfo)] + rest)
    ensures S3Location(fields) == Some((bucket, key))
  {
    var first := NotificationRecord(bucket, key, record, s3, bucketInfo, objectInfo);
    assert fields["Records"].items[0] == first;
    assert Member(first, "s3") == Some(JObj(s3["bucket" := JObj(bucketInfo["name" := bucket])]
                                             ["object" := JObj(objectInfo["key" := key])]));
  }

  /** A continuation's timestamp addresses the job it was scheduled for:
      the integer reads back from the key stamp, and the same number sent
      as a string addresses the same keys. */
  lemma StampTextOfTimestamp(n: int)
    ensures ReadInt(StampText(JInt(n))) == n
    ensures StampText(JStr(IntText(n))) == StampText(JInt(n))
  {
    IntTextRoundTrip(n);
  }

  /** An event that is not an object, or an object that neither names an
      iteration nor holds the upload record's subscripts, answers 500 and
      has no effect. */
  lemma MalformedEventHasNoEffect(event: Json, store: Store, env: Env)
    requires !event.JObj? || ("iteration" !in event.fields && S3Location(event.fields).None?)
    ensures LambdaHandler(event, store, env) == Outcome(Response(500, Failed(MalformedEvent)), store, [])
  {
  }

  // ---------------------------------------------------------------------
  // Phase 1

  /** Everything the first phase needs from its environment to succeed. */
  predicate StartSucceeds(bucket: Json, key: Json, env: Env)
  {
    var stamp := IntText(env.clock.first);
    && UploadAccepted(bucket, key, env)
    && ReplyField(env.queryReply, "generated_text").Ok?
    && Iteration1Key(stamp) !in env.failingPuts
    && MetadataKey(stamp) !in env.failingPuts
    && !env.invokeFails
  }

  /** A rejected upload answers 400 and leaves no trace. */
  lemma UploadRejectedHasNoEffect(bucket: string, key: string, store: Store, env: Env)
    requires env.sourceReadable && Stageable(Basename(key))
    requires env.uploadReply.Some? && env.uploadReply.value.JObj?
    requires Field(env.uploadReply.value.fields, "status_code") != JInt(200)
    ensures LambdaHandler(UploadEvent(bucket, key), store, env) ==
      Outcome(Response(400, UploadRejected(env.uploadReply.value)), store, [])
  {
    RoutesUploadEvent(bucket, key, store, env);
  }

  /** Readiness does not gate the analysis: any two poll histories that do
      not raise lead to the same outcome, whether or not either of them
      confirmed the document. */
  lemma ReadinessDoesNotGateAnalysis(bucket: Json, key: Json, store: Store, env: Env, replies: nat -> Option<Json>)
    requires !AwaitReady(env.statusReply).PollFailed?
    requires !AwaitReady(replies).PollFailed?
    ensures StartWorkflow(bucket, key, store, env) == StartWorkflow(bucket, key, store, env.(statusReply := replies))
  {
    var env' := env.(statusReply := replies);
    if UploadAccepted(bucket, key, env) {
      StartReachesPhase1(bucket, key, store, env);
      StartReachesPhase1(bucket, key, store, env');
      RunPhase1IgnoresPoll(bucket.s, Basename(key.s), store, env, replies);
    } else {
      StartStopsEarlyIgnoringPoll(bucket, key, store, env, replies);
    }
  }

  /** Before the poll, the outcome does not depend on the poll replies. */
  lemma StartStopsEarlyIgnoringPoll(bucket: Json, key: Json, store: Store, env: Env, replies: nat -> Option<Json>)
    requires !AwaitReady(env.statusReply).PollFailed?
    requires !AwaitReady(replies).PollFailed?
    requires !UploadAccepted(bucket, key, env)
    ensures StartWorkflow(bucket, key, store, env) == StartWorkflow(bucket, key, store, env.(statusReply := replies))
  {
  }

  /** The first phase proper reads no poll reply. */
  lemma RunPhase1IgnoresPoll(bucket: string, filename: string, store: Store, env: Env, replies: nat -> Option<Json>)
    ensures RunPhase1(bucket, filename, store, env) == RunPhase1(bucket, filename, store, env.(statusReply := replies))
  {
    var env' := env.(statusReply := replies);
    var stamp := IntText(env.clock.first);
    if ReplyField(env.queryReply, "generated_text").Ok? {
      var raw := ReplyField(env.queryReply, "generated_text").value;
      JobKeysDistinct(stamp);
      var artifact := ValidateAnalysis(raw, JStr(filename), env.parse, env.clock.second);
      var meta := InitialMetadata(filename, bucket, env.clock.first);
      var next := Trigger(2, JInt(env.clock.first), JStr(filename));
      CommitPhase1IgnoresPoll(store, Iteration1Key(stamp), artifact, MetadataKey(stamp), meta, next, env, replies);
    }
  }

  lemma CommitPhase1IgnoresPoll(store: Store, artifactKey: string, artifact: Json, metaKey: string, meta: map<string, Json>,
                                next: Trigger, env: Env, replies: nat -> Option<Json>)
    requires artifactKey != metaKey
    ensures CommitPhase1(store, artifactKey, artifact, metaKey, meta, next, env)
         == CommitPhase1(store, artifactKey, artifact, metaKey, meta, next, env.(statusReply := replies))
  {
  }

  /** The bucket after a successful first phase. */
  function Phase1Store(bucket: string, filename: string, store: Store, env: Env): Store
    requires ReplyField(env.queryReply, "generated_text").Ok?
  {
    var stamp := IntText(env.clock.first);
    var raw := ReplyField(env.queryReply, "generated_text").value;
    store[Iteration1Key(stamp) := Doc(ValidateAnalysis(raw, JStr(filename), env.parse, env.clock.second))]
         [MetadataKey(stamp) := Doc(JObj(InitialMetadata(filename, bucket, env.clock.first)))]
  }

  /** The first phase succeeds exactly when its environment cooperates,
      and then it has written the artifact and the initial metadata under
      one timestamp, and nothing else. */
  lemma StartSuccess(bucket: Json, key: Json, store: Store, env: Env)
    ensures StartWorkflow(bucket, key, store, env).response.statusCode == 200 <==> StartSucceeds(bucket, key, env)
    ensures StartSucceeds(bucket, key, env) ==>
      StartWorkflow(bucket, key, store, env) == Outcome(
        Response(200, PhaseDone(1)),
        Phase1Store(bucket.s, Basename(key.s), store, env),
        [Trigger(2, JInt(env.clock.first), JStr(Basename(key.s)))])
  {
    if UploadAccepted(bucket, key, env) {
      StartReachesPhase1(bucket, key, store, env);
      RunPhase1Success(bucket.s, Basename(key.s), store, env);
    } else {
      StartStopsEarly(bucket, key, store, env);
    }
  }

  /** The upload could be read and staged, was accepted, and the poll did
      not raise. */
  predicate UploadAccepted(bucket: Json, key: Json, env: Env)
  {
    && bucket.JStr? && key.JStr? && env.sourceReadable && Stageable(Basename(key.s))
    && ReplyField(env.uploadReply, "status_code") == Ok(JInt(200))
    && !AwaitReady(env.statusReply).PollFailed?
  }

  lemma StartReachesPhase1(bucket: Json, key: Json, store: Store, env: Env)
    requires UploadAccepted(bucket, key, env)
    ensures StartWorkflow(bucket, key, store, env) == RunPhase1(bucket.s, Basename(key.s), store, env)
  {
  }

  /** Before the first phase proper, every way out answers an error. */
  lemma StartStopsEarly(bucket: Json, key: Json, store: Store, env: Env)
    requires !UploadAccepted(bucket, key, env)
    ensures StartWorkflow(bucket, key, store, env).response.statusCode != 200
  {
    if !bucket.JStr? || !key.JStr? || !env.sourceReadable {
      StartSourceUnreadable(bucket, key, store, env);
    } else if !Stageable(Basename(key.s)) {
      StartStagingFails(bucket, key, store, env);
    } else if ReplyField(env.uploadReply, "status_code") != Ok(JInt(200)) {
      StartUploadRefused(bucket, key, store, env);
    } else {
      StartPollFails(bucket, key, store, env);
    }
  }

  /** The early exits of `start_workflow`, one at a time. */
  lemma StartSourceUnreadable(bucket: Json, key: Json, store: Store, env: Env)
    requires !bucket.JStr? || !key.JStr? || !env.sourceReadable
    ensures StartWorkflow(bucket, key, store, env) == Fail(SourceUnreadable, store)
  {
  }

  lemma StartStagingFails(bucket: Json, key: Json, store: Store, env: Env)
    requires bucket.JStr? && key.JStr? && env.sourceReadable && !Stageable(Basename(key.s))
    ensures StartWorkflow(bucket, key, store, env) == Fail(StagingFailed, store)
  {
  }

  lemma StartUploadRefused(bucket: Json, key: Json, store: Store, env: Env)
    requires bucket.JStr? && key.JStr? && env.sourceReadable && Stageable(Basename(key.s))
    requires ReplyField(env.uploadReply, "status_code") != Ok(JInt(200))
    ensures ReplyField(env.uploadReply, "status_code").Err? ==>
      StartWorkflow(bucket, key, store, env) == Fail(ReplyField(env.uploadReply, "status_code").error, store)
    ensures ReplyField(env.uploadReply, "status_code").Ok? ==>
      StartWorkflow(bucket, key, store, env) == Outcome(Response(400, UploadRejected(env.uploadReply.value)), store, [])
  {
  }

  lemma StartPollFails(bucket: Json, key: Json, store: Store, env: Env)
    requires bucket.JStr? && key.JStr? && env.sourceReadable && Stageable(Basename(key.s))
    requires ReplyField(env.uploadReply, "status_code") == Ok(JInt(200))
    requires AwaitReady(env.statusReply).PollFailed?
    ensures StartWorkflow(bucket, key, store, env) == Fail(AwaitReady(env.statusReply).fault, store)
  {
  }

  /** The first phase proper, once the upload is accepted. */
  lemma RunPhase1Success(bucket: string, filename: string, store: Store, env: Env)
    ensures
      var stamp := IntText(env.clock.first);
      var ok := ReplyField(env.queryReply, "generated_text").Ok?
        && Iteration1Key(stamp) !in env.failingPuts && MetadataKey(stamp) !in env.failingPuts && !env.invokeFails;
      && (RunPhase1(bucket, filename, store, env).response.statusCode == 200 <==> ok)
      && (ok ==> RunPhase1(bucket, filename, store, env) == Outcome(
        Response(200, PhaseDone(1)), Phase1Store(bucket, filename, store, env),
        [Trigger(2, JInt(env.clock.first), JStr(filename))]))
  {
  }

  /** When the invoke of phase 1 raises after both puts, the job is
      stranded: the answer is 500 and nothing is scheduled, yet the
      artifact and the metadata at progress 1 stay in the bucket. */
  lemma Phase1InvokeFailsStrandsJob(bucket: string, filename: string, store: Store, env: Env)
    requires ReplyField(env.queryReply, "generated_text").Ok?
    requires Iteration1Key(IntText(env.clock.first)) !in env.failingPuts && MetadataKey(IntText(env.clock.first)) !in env.failingPuts
    requires env.invokeFails
    ensures
      var r := RunPhase1(bucket, filename, store, env);
      && r == Outcome(Response(500, Failed(InvokeFailed)), Phase1Store(bucket, filename, store, env), [])
      && StoredProgress(r.store, IntText(env.clock.first)) == Some(JInt(1))
  {
    JobKeysDistinct(IntText(env.clock.first));
  }

  // ---------------------------------------------------------------------
  // Continuations

  /** A continuation event reaches the phase its number selects. */
  lemma ContinueDispatch(iteration: Json, timestamp: Json, filename: Json, store: Store, env: Env)
    ensures LambdaHandler(ContinueEvent(iteration, timestamp, filename), store, env) ==
      if iteration == JInt(2) then Phase2(timestamp, filename, store, env)
      else if iteration == JInt(3) then Phase3(timestamp, filename, store, env)
      else Outcome(Response(400, InvalidIteration(iteration)), store, [])
  {
    var fields := ContinueEvent(iteration, timestamp, filename).fields;
    assert "iteration" in fields && "timestamp" in fields && "filename" in fields;
    assert fields["iteration"] == iteration && fields["timestamp"] == timestamp && fields["filename"] == filename;
  }

  /** Any phase number other than 2 and 3 is echoed back with a 400, and
      nothing is read, written or scheduled. */
  lemma InvalidPhaseHasNoEffect(iteration: Json, timestamp: Json, filename: Json, store: Store, env: Env)
    requires iteration != JInt(2) && iteration != JInt(3)
    ensures LambdaHandler(ContinueEvent(iteration, timestamp, filename), store, env) ==
      Outcome(Response(400, InvalidIteration(iteration)), store, [])
  {
    ContinueDispatch(iteration, timestamp, filename, store, env);
  }

  /** A continuation event missing its timestamp or filename is not
      rejected as an invalid phase: the subscript raises first and the
      handler answers 500, still without effect. */
  lemma IncompleteContinueEventFails(fields: map<string, Json>, store: Store, env: Env)
    requires "iteration" in fields
    requires "timestamp" !in fields || "filename" !in fields
    ensures LambdaHandler(JObj(fields), store, env) == Outcome(Response(500, Failed(MalformedEvent)), store, [])
  {
  }

  /** Phase 2 never runs without the phase-1 artifact: a missing one
      answers 500, writes nothing and schedules nothing. */
  lemma Phase2NeedsPredecessor(timestamp: Json, filename: Json, store: Store, env: Env)
    requires Iteration1Key(StampText(timestamp)) !in store
    ensures LambdaHandler(ContinueEvent(JInt(2), timestamp, filename), store, env) ==
      Outcome(Response(500, IterationFailed(JInt(2), NoSuchKey(Iteration1Key(StampText(timestamp))))), store, [])
  {
    ContinueDispatch(JInt(2), timestamp, filename, store, env);
  }

  /** Phase 3 never runs without the phase-2 artifact. */
  lemma Phase3NeedsPredecessor(timestamp: Json, filename: Json, store: Store, env: Env)
    requires Iteration2Key(StampText(timestamp)) !in store
    ensures LambdaHandler(ContinueEvent(JInt(3), timestamp, filename), store, env) ==
      Outcome(Response(500, IterationFailed(JInt(3), NoSuchKey(Iteration2Key(StampText(timestamp))))), store, [])
  {
    ContinueDispatch(JInt(3), timestamp, filename, store, env);
  }

  /** The phase-1 artifact as phase 2 decodes it, when it is an object. */
  predicate Phase1Readable(stamp: string, store: Store, env: Env)
  {
    Load(store, Iteration1Key(stamp), env.failingGets, env.parse).Ok? && Load(store, Iteration1Key(stamp), env.failingGets, env.parse).value.JObj?
  }

  /** Everything phase 2 needs from the bucket and the environment. */
  predicate Phase2Succeeds(stamp: string, store: Store, env: Env)
  {
    && Phase1Readable(stamp, store, env)
    && ReplyField(env.queryReply, "generated_text").Ok?
    && Iteration2Key(stamp) !in env.failingPuts
    && LoadMetadata(store, stamp, env.failingGets, env.parse).Ok?
    && MetadataKey(stamp) !in env.failingPuts
    && !env.invokeFails
  }

  /** The phase-2 artifact built from the phase-1 artifact and the reply. */
  function Phase2Artifact(stamp: string, filename: Json, store: Store, env: Env): Json
    requires Phase1Readable(stamp, store, env)
    requires ReplyField(env.queryReply, "generated_text").Ok?
  {
    CrossValidateResults(
      FirstAnalysis(Load(store, Iteration1Key(stamp), env.failingGets, env.parse).value.fields),
      ReplyField(env.queryReply, "generated_text").value, filename, env.clock.first)
  }

  lemma MetadataUnaffectedByArtifact(store: Store, stamp: string, key: string, doc: Json, failing: set<string>, parse: string -> Result<Json, string>)
    requires key == Iteration2Key(stamp) || key == FinalKey(stamp)
    ensures LoadMetadata(store[key := Doc(doc)], stamp, failing, parse) == LoadMetadata(store, stamp, failing, parse)
  {
    KeysDistinct(stamp, stamp);
    assert Load(store[key := Doc(doc)], MetadataKey(stamp), failing, parse) == Load(store, MetadataKey(stamp), failing, parse);
  }

  /** The bucket after a successful phase 2. */
  function Phase2Store(stamp: string, filename: Json, store: Store, env: Env): Store
    requires Phase2Succeeds(stamp, store, env)
  {
    store[Iteration2Key(stamp) := Doc(Phase2Artifact(stamp, filename, store, env))]
         [MetadataKey(stamp) := Doc(JObj(MarkIteration2(LoadMetadata(store, stamp, env.failingGets, env.parse).value)))]
  }

  /** Phase 2 (which a continuation numbered 2 reaches, by
      `ContinueDispatch`) succeeds exactly when the bucket and environment
      cooperate; it then has written the phase-2 artifact and the metadata
      advanced to 2 with every other field kept, and scheduled phase 3
      with the same timestamp and filename. */
  lemma Phase2Success(timestamp: Json, filename: Json, store: Store, env: Env)
    ensures Phase2(timestamp, filename, store, env).response.statusCode == 200 <==> Phase2Succeeds(StampText(timestamp), store, env)
    ensures Phase2Succeeds(StampText(timestamp), store, env) ==>
      Phase2(timestamp, filename, store, env) == Outcome(
        Response(200, PhaseDone(2)),
        Phase2Store(StampText(timestamp), filename, store, env),
        [Trigger(3, timestamp, filename)])
  {
    var stamp := StampText(timestamp);
    if Phase1Readable(stamp, store, env) && ReplyField(env.queryReply, "generated_text").Ok? && Iteration2Key(stamp) !in env.failingPuts {
      MetadataUnaffectedByArtifact(store, stamp, Iteration2Key(stamp), Phase2Artifact(stamp, filename, store, env), env.failingGets, env.parse);
    }
  }

  /** When phase 2 cannot read the metadata, its artifact stays written
      but no trigger for phase 3 is scheduled. */
  lemma Phase2MetadataUnreadable(timestamp: Json, filename: Json, store: Store, env: Env)
    requires Phase1Readable(StampText(timestamp), store, env)
    requires ReplyField(env.queryReply, "generated_text").Ok?
    requires Iteration2Key(StampText(timestamp)) !in env.failingPuts
    requires LoadMetadata(store, StampText(timestamp), env.failingGets, env.parse).Err?
    ensures
      var stamp := StampText(timestamp);
      var r := Phase2(timestamp, filename, store, env);
      && r.response == Response(500, IterationFailed(JInt(2), LoadMetadata(store, stamp, env.failingGets, env.parse).error))
      && r.store == store[Iteration2Key(stamp) := Doc(Phase2Artifact(stamp, filename, store, env))]
      && r.triggers == []
  {
    var stamp := StampText(timestamp);
    MetadataUnaffectedByArtifact(store, stamp, Iteration2Key(stamp), Phase2Artifact(stamp, filename, store, env), env.failingGets, env.parse);
  }

  /** When the invoke of phase 2 raises after both puts, the answer is 500
      and phase 3 is never scheduled, yet the phase-2 artifact and the
      metadata advanced to 2 stay in the bucket. */
  lemma Phase2InvokeFailsStrandsJob(timestamp: Json, filename: Json, store: Store, env: Env)
    requires Phase1Readable(StampText(timestamp), store, env)
    requires ReplyField(env.queryReply, "generated_text").Ok?
    requires Iteration2Key(StampText(timestamp)) !in env.failingPuts && MetadataKey(StampText(timestamp)) !in env.failingPuts
    requires LoadMetadata(store, StampText(timestamp), env.failingGets, env.parse).Ok?
    requires env.invokeFails
    ensures
      var stamp := StampText(timestamp);
      var r := Phase2(timestamp, filename, store, env);
      && r.response == Response(500, IterationFailed(JInt(2), InvokeFailed))
      && r.store == store[Iteration2Key(stamp) := Doc(Phase2Artifact(stamp, filename, store, env))]
                         [MetadataKey(stamp) := Doc(JObj(MarkIteration2(LoadMetadata(store, stamp, env.failingGets, env.parse).value)))]
      && r.triggers == []
      && StoredProgress(r.store, stamp) == Some(JInt(2))
  {
    var stamp := StampText(timestamp);
    MetadataUnaffectedByArtifact(store, stamp, Iteration2Key(stamp), Phase2Artifact(stamp, filename, store, env), env.failingGets, env.parse);
  }

  /** Everything phase 3 needs from the bucket and the environment. */
  predicate Phase3Succeeds(stamp: string, store: Store, env: Env)
  {
    && Load(store, Iteration2Key(stamp), env.failingGets, env.parse).Ok?
    && ReplyField(env.queryReply, "generated_text").Ok?
    && FinalKey(stamp) !in env.failingPuts
    && LoadMetadata(store, stamp, env.failingGets, env.parse).Ok?
    && MetadataKey(stamp) !in env.failingPuts
  }

  /** The bucket after a successful phase 3. */
  function Phase3Store(stamp: string, filename: Json, store: Store, env: Env): Store
    requires Phase3Succeeds(stamp, store, env)
  {
    store[FinalKey(stamp) := Doc(GenerateFinalReport(ReplyField(env.queryReply, "generated_text").value, filename, env.clock.first))]
         [MetadataKey(stamp) := Doc(JObj(MarkCompleted(LoadMetadata(store, stamp, env.failingGets, env.parse).value, env.clock.second)))]
  }

  /** Phase 3 succeeds exactly when the bucket and environment cooperate;
      it then has written the report under `final/`, marked the metadata
      finished at the second clock reading, and scheduled nothing. */
  lemma Phase3Success(timestamp: Json, filename: Json, store: Store, env: Env)
    ensures Phase3(timestamp, filename, store, env).response.statusCode == 200 <==> Phase3Succeeds(StampText(timestamp), store, env)
    ensures Phase3Succeeds(StampText(timestamp), store, env) ==>
      Phase3(timestamp, filename, store, env) == Outcome(
        Response(200, PhaseDone(3)), Phase3Store(StampText(timestamp), filename, store, env), [])
  {
    var stamp := StampText(timestamp);
    var r := Phase3(timestamp, filename, store, env);
    if Load(store, Iteration2Key(stamp), env.failingGets, env.parse).Ok? && ReplyField(env.queryReply, "generated_text").Ok? && FinalKey(stamp) !in env.failingPuts {
      var report := GenerateFinalReport(ReplyField(env.queryReply, "generated_text").value, filename, env.clock.first);
      var s1 := store[FinalKey(stamp) := Doc(report)];
      MetadataUnaffectedByArtifact(store, stamp, FinalKey(stamp), report, env.failingGets, env.parse);
      if LoadMetadata(store, stamp, env.failingGets, env.parse).Ok? && MetadataKey(stamp) !in env.failingPuts {
        assert r == Outcome(Response(200, PhaseDone(3)), Phase3Store(stamp, filename, store, env), []);
      } else {
        assert r.response.statusCode == 500;
      }
    } else {
      assert r.response.statusCode == 500;
    }
  }

  /** When phase 3 cannot read the metadata, or cannot write it, the report
      stays written under `final/`, the metadata is unchanged and the job is
      never marked completed. */
  lemma Phase3MetadataNotUpdated(timestamp: Json, filename: Json, store: Store, env: Env)
    requires Load(store, Iteration2Key(StampText(timestamp)), env.failingGets, env.parse).Ok?
    requires ReplyField(env.queryReply, "generated_text").Ok?
    requires FinalKey(StampText(timestamp)) !in env.failingPuts
    requires LoadMetadata(store, StampText(timestamp), env.failingGets, env.parse).Err? || MetadataKey(StampText(timestamp)) in env.failingPuts
    ensures
      var stamp := StampText(timestamp);
      var meta := LoadMetadata(store, stamp, env.failingGets, env.parse);
      var r := Phase3(timestamp, filename, store, env);
      && r.response == Response(500, IterationFailed(JInt(3), if meta.Err? then meta.error else PutFailed(MetadataKey(stamp))))
      && r.store == store[FinalKey(stamp) := Doc(GenerateFinalReport(ReplyField(env.queryReply, "generated_text").value, filename, env.clock.first))]
      && r.triggers == []
      && StoredObject(r.store, MetadataKey(stamp)) == StoredObject(store, MetadataKey(stamp))
  {
    var stamp := StampText(timestamp);
    JobKeysDistinct(stamp);
    MetadataUnaffectedByArtifact(store, stamp, FinalKey(stamp),
      GenerateFinalReport(ReplyField(env.queryReply, "generated_text").value, filename, env.clock.first), env.failingGets, env.parse);
  }

  // ---------------------------------------------------------------------
  // Ordering between artifacts, metadata and triggers

  /** The phase count the bucket records for a job, when the handler wrote
      its metadata. */
  function StoredProgress(store: Store, stamp: string): Option<Json>
  {
    match StoredObject(store, MetadataKey(stamp))
    case Some(meta) => Some(Progress(meta))
    case None => None
  }

  /** The committed state a continuation for `iteration` relies on. */
  ghost predicate CommittedBefore(store: Store, iteration: int, stamp: string)
  {
    && (iteration == 2 ==> Iteration1Key(stamp) in store && StoredProgress(store, stamp) == Some(JInt(1)))
    && (iteration == 3 ==>
          && Iteration1Key(stamp) in store && Iteration2Key(stamp) in store
          && StoredProgress(store, stamp) == Some(JInt(2)))
  }

  lemma StartTriggerCommitted(bucket: Json, key: Json, store: Store, env: Env)
    ensures
      var r := StartWorkflow(bucket, key, store, env);
      r.triggers != [] ==> CommittedBefore(r.store, r.triggers[0].iteration, StampText(r.triggers[0].timestamp))
  {
    var r := StartWorkflow(bucket, key, store, env);
    if r.triggers != [] {
      StartSuccess(bucket, key, store, env);
      Phase1Committed(r, bucket.s, Basename(key.s), store, env);
    }
  }

  /** The outcome of a successful first phase holds what phase 2 relies on. */
  lemma Phase1Committed(r: Outcome, bucket: string, filename: string, store: Store, env: Env)
    requires ReplyField(env.queryReply, "generated_text").Ok?
    requires r == Outcome(Response(200, PhaseDone(1)), Phase1Store(bucket, filename, store, env),
                          [Trigger(2, JInt(env.clock.first), JStr(filename))])
    ensures CommittedBefore(r.store, r.triggers[0].iteration, StampText(r.triggers[0].timestamp))
  {
    var stamp := IntText(env.clock.first);
    var raw := ReplyField(env.queryReply, "generated_text").value;
    assert StampText(r.triggers[0].timestamp) == stamp;
    var record := ValidateAnalysis(raw, JStr(filename), env.parse, env.clock.second);
    var meta := InitialMetadata(filename, bucket, env.clock.first);
    assert r.store == store[Iteration1Key(stamp) := Doc(record)][MetadataKey(stamp) := Doc(JObj(meta))];
    FirstWritesCommitted(store, stamp, record, meta);
  }

  lemma FirstWritesCommitted(store: Store, stamp: string, record: Json, meta: map<string, Json>)
    requires record.JObj?
    requires Progress(meta) == JInt(1)
    ensures CommittedBefore(store[Iteration1Key(stamp) := Doc(record)][MetadataKey(stamp) := Doc(JObj(meta))], 2, stamp)
  {
    JobKeysDistinct(stamp);
    TwoWrites(store, Iteration1Key(stamp), record, MetadataKey(stamp), JObj(meta));
  }

  lemma Phase2TriggerCommitted(timestamp: Json, filename: Json, store: Store, env: Env)
    ensures
      var r := Phase2(timestamp, filename, store, env);
      r.triggers != [] ==> CommittedBefore(r.store, r.triggers[0].iteration, StampText(r.triggers[0].timestamp))
  {
    var r := Phase2(timestamp, filename, store, env);
    if r.triggers != [] {
      var stamp := StampText(timestamp);
      Phase2Success(timestamp, filename, store, env);
      JobKeysDistinct(stamp);
      assert Iteration1Key(stamp) in store;
      assert StoredObject(r.store, MetadataKey(stamp)) == Some(MarkIteration2(LoadMetadata(store, stamp, env.failingGets, env.parse).value));
    }
  }

  /** A continuation is scheduled only after the artifact of the phase it
      follows and the metadata counting that phase are both in the bucket. */
  lemma TriggerImpliesCommitted(event: Json, store: Store, env: Env)
    ensures
      var r := LambdaHandler(event, store, env);
      r.triggers != [] ==> CommittedBefore(r.store, r.triggers[0].iteration, StampText(r.triggers[0].timestamp))
  {
    match event
    case JObj(fields) =>
      if "iteration" in fields {
        if "timestamp" in fields && "filename" in fields && fields["iteration"] == JInt(2) {
          Phase2TriggerCommitted(fields["timestamp"], fields["filename"], store, env);
        }
      } else if S3Location(fields).Some? {
        var (bucket, key) := S3Location(fields).value;
        StartTriggerCommitted(bucket, key, store, env);
      }
    case _ =>
  }

  /** Per job: an artifact exists only after its predecessor, and the
      recorded phase count is backed by the artifact of that phase. */
  ghost predicate JobInvariant(store: Store, stamp: string)
  {
    && (Iteration2Key(stamp) in store ==> Iteration1Key(stamp) in store)
    && (FinalKey(stamp) in store ==> Iteration2Key(stamp) in store)
    && (StoredProgress(store, stamp) == Some(JInt(1)) ==> Iteration1Key(stamp) in store)
    && (StoredProgress(store, stamp) == Some(JInt(2)) ==> Iteration2Key(stamp) in store)
    && (StoredProgress(store, stamp) == Some(JInt(3)) ==> FinalKey(stamp) in store)
  }

  /** A step that writes none of a job's keys keeps its invariant. */
  lemma UntouchedJob(store: Store, store': Store, keys: set<string>, stamp: string)
    requires JobInvariant(store, stamp)
    requires WritesOnly(store, store', keys)
    requires keys !! JobKeys(stamp)
    ensures JobInvariant(store', stamp)
  {
    assert forall k :: k in JobKeys(stamp) ==> (k in store' <==> k in store);
    assert StoredProgress(store', stamp) == StoredProgress(store, stamp);
  }

  /** A step that leaves the metadata alone keeps the recorded count. */
  lemma UnchangedProgress(store: Store, store': Store, keys: set<string>, stamp: string)
    requires WritesOnly(store, store', keys)
    requires !Changed(store, store', MetadataKey(stamp))
    ensures StoredProgress(store', stamp) == StoredProgress(store, stamp)
  {
  }

  /** A step confined to another job's keys keeps this job's invariant. */
  lemma OtherJobStep(store: Store, store': Store, keys: set<string>, t: string, stamp: string)
    requires JobInvariant(store, stamp)
    requires t != stamp
    requires keys <= JobKeys(t)
    requires WritesOnly(store, store', keys)
    ensures JobInvariant(store', stamp)
  {
    KeysDistinct(t, stamp);
    KeysDistinct(stamp, t);
    UntouchedJob(store, store', keys, stamp);
  }

  /** A step of this job that writes the artifact of phase `n` and then,
      possibly, metadata counting `n` phases keeps the invariant, provided
      the artifact of phase `n - 1` was already there. */
  lemma SameJobStep(store: Store, store': Store, stamp: string, n: int)
    requires 1 <= n <= 3
    requires JobInvariant(store, stamp)
    requires WritesOnly(store, store', {PhaseKey(stamp, n), MetadataKey(stamp)})
    requires store' != store && n > 1 ==> PhaseKey(stamp, n - 1) in store
    requires Changed(store, store', MetadataKey(stamp)) ==>
      PhaseKey(stamp, n) in store' && StoredProgress(store', stamp) == Some(JInt(n))
    ensures JobInvariant(store', stamp)
  {
    JobKeysDistinct(stamp);
    if !Changed(store, store', MetadataKey(stamp)) {
      UnchangedProgress(store, store', {PhaseKey(stamp, n), MetadataKey(stamp)}, stamp);
    }
  }

  lemma StartPreservesJob(bucket: Json, key: Json, store: Store, env: Env, stamp: string)
    requires JobInvariant(store, stamp)
    ensures JobInvariant(StartWorkflow(bucket, key, store, env).store, stamp)
  {
    var r := StartWorkflow(bucket, key, store, env);
    var t := IntText(env.clock.first);
    if t != stamp {
      OtherJobStep(store, r.store, {Iteration1Key(t), MetadataKey(t)}, t, stamp);
    } else {
      SameJobStep(store, r.store, stamp, 1);
    }
  }

  lemma Phase2PreservesJob(timestamp: Json, filename: Json, store: Store, env: Env, stamp: string)
    requires JobInvariant(store, stamp)
    ensures JobInvariant(Phase2(timestamp, filename, store, env).store, stamp)
  {
    var r := Phase2(timestamp, filename, store, env);
    var t := StampText(timestamp);
    if t != stamp {
      OtherJobStep(store, r.store, {Iteration2Key(t), MetadataKey(t)}, t, stamp);
    } else {
      SameJobStep(store, r.store, stamp, 2);
    }
  }

  lemma Phase3PreservesJob(timestamp: Json, filename: Json, store: Store, env: Env, stamp: string)
    requires JobInvariant(store, stamp)
    ensures JobInvariant(Phase3(timestamp, filename, store, env).store, stamp)
  {
    var r := Phase3(timestamp, filename, store, env);
    var t := StampText(timestamp);
    if t != stamp {
      OtherJobStep(store, r.store, {FinalKey(t), MetadataKey(t)}, t, stamp);
    } else {
      SameJobStep(store, r.store, stamp, 3);
    }
  }

  /** Every invocation, whatever its event and environment, keeps every
      job's invariant. */
  lemma StepPreservesJobInvariant(event: Json, store: Store, env: Env, stamp: string)
    requires JobInvariant(store, stamp)
    ensures JobInvariant(LambdaHandler(event, store, env).store, stamp)
  {
    match event
    case JObj(fields) =>
      if "iteration" in fields {
        if "timestamp" in fields && "filename" in fields {
          var iteration, timestamp, filename := fields["iteration"], fields["timestamp"], fields["filename"];
          if iteration == JInt(2) {
            Phase2PreservesJob(timestamp, filename, store, env, stamp);
          } else if iteration == JInt(3) {
            Phase3PreservesJob(timestamp, filename, store, env, stamp);
          }
        }
      } else if S3Location(fields).Some? {
        var (bucket, key) := S3Location(fields).value;
        StartPreservesJob(bucket, key, store, env, stamp);
      }
    case _ =>
  }

  /** An invocation writes only keys of the one job it works on, so every
      other job's artifacts and metadata are left exactly as they were. */
  lemma StepTouchesOneJob(event: Json, store: Store, env: Env)
    ensures WritesOnly(store, LambdaHandler(event, store, env).store, JobKeys(EventStamp(event, env)))
  {
    match event
    case JObj(fields) =>
      if "iteration" in fields {
      } else if S3Location(fields).Some? {
        var (bucket, key) := S3Location(fields).value;
        assert LambdaHandler(event, store, env) == StartWorkflow(bucket, key, store, env);
      }
    case _ =>
  }

  // ---------------------------------------------------------------------
  // Metadata

  /** Re-delivering phase 2 after the job finished leaves the metadata
      marked finished but counting only two phases: the count can go down,
      and the record is no longer consistent. */
  lemma RedeliveredPhase2RegressesProgress(timestamp: Json, filename: Json, store: Store, env: Env)
    requires Phase2Succeeds(StampText(timestamp), store, env)
    requires Completed(LoadMetadata(store, StampText(timestamp), env.failingGets, env.parse).value)
    ensures
      var meta := StoredObject(Phase2(timestamp, filename, store, env).store, MetadataKey(StampText(timestamp)));
      && meta.Some? && Completed(meta.value) && Progress(meta.value) == JInt(2) && !Consistent(meta.value)
  {
    Phase2Success(timestamp, filename, store, env);
    JobKeysDistinct(StampText(timestamp));
  }

  /** Phase 2 keeps the metadata consistent whenever the job was not
      already finished. */
  lemma Phase2KeepsMetadataConsistent(timestamp: Json, filename: Json, store: Store, env: Env)
    ensures
      var stamp := StampText(timestamp);
      var meta := StoredObject(Phase2(timestamp, filename, store, env).store, MetadataKey(stamp));
      Phase2Succeeds(stamp, store, env) && !Completed(LoadMetadata(store, stamp, env.failingGets, env.parse).value) ==>
        meta.Some? && Consistent(meta.value)
  {
    var stamp := StampText(timestamp);
    if Phase2Succeeds(stamp, store, env) {
      Phase2Success(timestamp, filename, store, env);
      JobKeysDistinct(stamp);
    }
  }

  /** A successful phase 3 always leaves the metadata consistent. */
  lemma Phase3KeepsMetadataConsistent(timestamp: Json, filename: Json, store: Store, env: Env)
    ensures
      var stamp := StampText(timestamp);
      var meta := StoredObject(Phase3(timestamp, filename, store, env).store, MetadataKey(stamp));
      Phase3Succeeds(stamp, store, env) ==> meta.Some? && Consistent(meta.value)
  {
    var stamp := StampText(timestamp);
    if Phase3Succeeds(stamp, store, env) {
      Phase3Success(timestamp, filename, store, env);
      JobKeysDistinct(stamp);
    }
  }

  // ---------------------------------------------------------------------
  // A complete run

  /** An environment in which no request fails, the upload is accepted,
      and no write or self-invocation raises. */
  predicate Cooperative(env: Env)
  {
    && env.sourceReadable
    && ReplyField(env.uploadReply, "status_code") == Ok(JInt(200))
    && !AwaitReady(env.statusReply).PollFailed?
    && ReplyField(env.queryReply, "generated_text").Ok?
    && env.failingGets == {}
    && env.failingPuts == {}
    && !env.invokeFails
  }

  lemma RunStage1(bucket: string, key: string, store: Store, env: Env)
    requires Cooperative(env)
    requires Stageable(Basename(key))
    ensures
      var o := LambdaHandler(UploadEvent(bucket, key), store, env);
      var stamp := IntText(env.clock.first);
      var raw := ReplyField(env.queryReply, "generated_text").value;
      && o.response == Response(200, PhaseDone(1))
      && o.triggers == [Trigger(2, JInt(env.clock.first), JStr(Basename(key)))]
      && StoredObject(o.store, Iteration1Key(stamp)) == Some(ValidateAnalysis(raw, JStr(Basename(key)), env.parse, env.clock.second).fields)
      && StoredObject(o.store, MetadataKey(stamp)) == Some(InitialMetadata(Basename(key), bucket, env.clock.first))
      && WritesOnly(store, o.store, JobKeys(stamp))
  {
    RoutesUploadEvent(bucket, key, store, env);
    StartStage(bucket, key, store, env);
  }

  /** The job stamp is the clock's second, so two uploads started within
      the same second address the same keys: the later start overwrites
      the earlier job's metadata with its own, and the earlier job's record
      of its file and bucket is lost. */
  lemma SameSecondUploadsCollide(bucket1: string, key1: string, bucket2: string, key2: string,
                                 store: Store, e1: Env, e2: Env)
    requires Cooperative(e1) && Cooperative(e2)
    requires Stageable(Basename(key1)) && Stageable(Basename(key2))
    requires e1.clock.first == e2.clock.first
    ensures
      var o1 := LambdaHandler(UploadEvent(bucket1, key1), store, e1);
      var o2 := LambdaHandler(UploadEvent(bucket2, key2), o1.store, e2);
      var stamp := IntText(e1.clock.first);
      && StoredObject(o1.store, MetadataKey(stamp)) == Some(InitialMetadata(Basename(key1), bucket1, e1.clock.first))
      && StoredObject(o2.store, MetadataKey(stamp)) == Some(InitialMetadata(Basename(key2), bucket2, e1.clock.first))
      && (Basename(key1) != Basename(key2) || bucket1 != bucket2 ==>
            StoredObject(o2.store, MetadataKey(stamp)) != StoredObject(o1.store, MetadataKey(stamp)))
  {
    var o1 := LambdaHandler(UploadEvent(bucket1, key1), store, e1);
    RunStage1(bucket1, key1, store, e1);
    RunStage1(bucket2, key2, o1.store, e2);
  }

  lemma StartStage(bucket: string, key: string, store: Store, env: Env)
    requires Cooperative(env)
    requires Stageable(Basename(key))
    ensures
      var o := StartWorkflow(JStr(bucket), JStr(key), store, env);
      var stamp := IntText(env.clock.first);
      var raw := ReplyField(env.queryReply, "generated_text").value;
      && o.response == Response(200, PhaseDone(1))
      && o.triggers == [Trigger(2, JInt(env.clock.first), JStr(Basename(key)))]
      && StoredObject(o.store, Iteration1Key(stamp)) == Some(ValidateAnalysis(raw, JStr(Basename(key)), env.parse, env.clock.second).fields)
      && StoredObject(o.store, MetadataKey(stamp)) == Some(InitialMetadata(Basename(key), bucket, env.clock.first))
      && WritesOnly(store, o.store, JobKeys(stamp))
  {
    var stamp := IntText(env.clock.first);
    var filename := Basename(key);
    var raw := ReplyField(env.queryReply, "generated_text").value;
    var o := StartWorkflow(JStr(bucket), JStr(key), store, env);
    assert UploadAccepted(JStr(bucket), JStr(key), env);
    assert StartSucceeds(JStr(bucket), JStr(key), env);
    StartSuccess(JStr(bucket), JStr(key), store, env);
    var record := ValidateAnalysis(raw, JStr(filename), env.parse, env.clock.second);
    var meta := InitialMetadata(filename, bucket, env.clock.first);
    assert o.store == store[Iteration1Key(stamp) := Doc(record)][MetadataKey(stamp) := Doc(JObj(meta))];
    JobKeysDistinct(stamp);
    TwoWrites(store, Iteration1Key(stamp), record, MetadataKey(stamp), JObj(meta));
  }

  lemma RunStage2(o: Outcome, env: Env, timestamp: Json, stamp: string, filename: Json, meta: map<string, Json>, record: map<string, Json>)
    requires Cooperative(env)
    requires StampText(timestamp) == stamp
    requires o.triggers == [Trigger(2, timestamp, filename)]
    requires StoredObject(o.store, Iteration1Key(stamp)) == Some(record)
    requires StoredObject(o.store, MetadataKey(stamp)) == Some(meta)
    ensures
      var o' := DeliverNext(o, env);
      && o'.response == Response(200, PhaseDone(2))
      && o'.triggers == [Trigger(3, timestamp, filename)]
      && StoredObject(o'.store, Iteration2Key(stamp)) ==
           Some(CrossValidateResults(FirstAnalysis(record), ReplyField(env.queryReply, "generated_text").value, filename, env.clock.first).fields)
      && StoredObject(o'.store, MetadataKey(stamp)) == Some(MarkIteration2(meta))
      && WritesOnly(o.store, o'.store, JobKeys(stamp))
  {
    ContinueDispatch(JInt(2), timestamp, filename, o.store, env);
    Phase2Stage(timestamp, stamp, filename, o.store, env, meta, record);
  }

  lemma Phase2Stage(timestamp: Json, stamp: string, filename: Json, store: Store, env: Env, meta: map<string, Json>, record: map<string, Json>)
    requires Cooperative(env)
    requires StampText(timestamp) == stamp
    requires StoredObject(store, Iteration1Key(stamp)) == Some(record)
    requires StoredObject(store, MetadataKey(stamp)) == Some(meta)
    ensures
      var o := Phase2(timestamp, filename, store, env);
      && o.response == Response(200, PhaseDone(2))
      && o.triggers == [Trigger(3, timestamp, filename)]
      && StoredObject(o.store, Iteration2Key(stamp)) ==
           Some(CrossValidateResults(FirstAnalysis(record), ReplyField(env.queryReply, "generated_text").value, filename, env.clock.first).fields)
      && StoredObject(o.store, MetadataKey(stamp)) == Some(MarkIteration2(meta))
      && WritesOnly(store, o.store, JobKeys(stamp))
  {
    JobKeysDistinct(stamp);
    assert Phase2Succeeds(stamp, store, env);
    Phase2Success(timestamp, filename, store, env);
    var artifact := Phase2Artifact(stamp, filename, store, env);
    TwoWrites(store, Iteration2Key(stamp), artifact, MetadataKey(stamp), JObj(MarkIteration2(meta)));
  }

  lemma RunStage3(o: Outcome, env: Env, timestamp: Json, stamp: string, filename: Json, meta: map<string, Json>)
    requires Cooperative(env)
    requires StampText(timestamp) == stamp
    requires o.triggers == [Trigger(3, timestamp, filename)]
    requires StoredObject(o.store, Iteration2Key(stamp)).Some?
    requires StoredObject(o.store, MetadataKey(stamp)) == Some(meta)
    ensures
      var o' := DeliverNext(o, env);
      && o'.response == Response(200, PhaseDone(3))
      && o'.triggers == []
      && FinalKey(stamp) in o'.store
      && StoredObject(o'.store, FinalKey(stamp)) ==
           Some(GenerateFinalReport(ReplyField(env.queryReply, "generated_text").value, filename, env.clock.first).fields)
      && StoredObject(o'.store, MetadataKey(stamp)) == Some(MarkCompleted(meta, env.clock.second))
      && WritesOnly(o.store, o'.store, {FinalKey(stamp), MetadataKey(stamp)})
  {
    ContinueDispatch(JInt(3), timestamp, filename, o.store, env);
    Phase3Stage(timestamp, stamp, filename, o.store, env, meta);
  }

  lemma Phase3Stage(timestamp: Json, stamp: string, filename: Json, store: Store, env: Env, meta: map<string, Json>)
    requires Cooperative(env)
    requires StampText(timestamp) == stamp
    requires StoredObject(store, Iteration2Key(stamp)).Some?
    requires StoredObject(store, MetadataKey(stamp)) == Some(meta)
    ensures
      var o := Phase3(timestamp, filename, store, env);
      && o.response == Response(200, PhaseDone(3))
      && o.triggers == []
      && FinalKey(stamp) in o.store
      && StoredObject(o.store, FinalKey(stamp)) ==
           Some(GenerateFinalReport(ReplyField(env.queryReply, "generated_text").value, filename, env.clock.first).fields)
      && StoredObject(o.store, MetadataKey(stamp)) == Some(MarkCompleted(meta, env.clock.second))
      && WritesOnly(store, o.store, {FinalKey(stamp), MetadataKey(stamp)})
  {
    JobKeysDistinct(stamp);
    assert Phase3Succeeds(stamp, store, env);
    Phase3Success(timestamp, filename, store, env);
    var report := GenerateFinalReport(ReplyField(env.queryReply, "generated_text").value, filename, env.clock.first);
    TwoWrites(store, FinalKey(stamp), report, MetadataKey(stamp), JObj(MarkCompleted(meta, env.clock.second)));
  }

  /** The metadata of a job that went through all three phases. */
  lemma FinishedMetadata(filename: string, bucket: string, timestamp: int, now: int)
    ensures
      var meta := MarkCompleted(MarkIteration2(InitialMetadata(filename, bucket, timestamp)), now);
      && Progress(meta) == JInt(3) && Completed(meta) && Consistent(meta)
      && Field(meta, "timestamp") == JInt(timestamp)
      && Field(meta, "original_file") == JStr(filename)
      && Field(meta, "original_bucket") == JStr(bucket)
      && Field(meta, "completion_timestamp") == JInt(now)
  {
    var meta1 := InitialMetadata(filename, bucket, timestamp);
    var meta2 := MarkIteration2(meta1);
    var meta3 := MarkCompleted(meta2, now);
    assert Field(meta3, "timestamp") == Field(meta2, "timestamp") == Field(meta1, "timestamp");
    assert Field(meta3, "original_file") == Field(meta2, "original_file") == Field(meta1, "original_file");
    assert Field(meta3, "original_bucket") == Field(meta2, "original_bucket") == Field(meta1, "original_bucket");
  }

  /** How the footprints of three successful stages compose: the job's
      keys all exist, nothing else changed, and phase 3 left the phase-2
      artifact alone. */
  lemma ComposeStages(store: Store, s1: Store, s2: Store, s3: Store, stamp: string, second: map<string, Json>)
    requires WritesOnly(store, s1, JobKeys(stamp))
    requires Iteration1Key(stamp) in s1
    requires WritesOnly(s1, s2, JobKeys(stamp))
    requires StoredObject(s2, Iteration2Key(stamp)) == Some(second)
    requires WritesOnly(s2, s3, {FinalKey(stamp), MetadataKey(stamp)})
    requires FinalKey(stamp) in s3 && MetadataKey(stamp) in s3
    ensures JobKeys(stamp) <= s3.Keys
    ensures WritesOnly(store, s3, JobKeys(stamp))
    ensures StoredObject(s3, Iteration2Key(stamp)) == Some(second)
  {
    JobKeysDistinct(stamp);
    WritesOnlyTrans(store, s1, s2, JobKeys(stamp), JobKeys(stamp));
    assert JobKeys(stamp) + JobKeys(stamp) == JobKeys(stamp);
    WritesOnlyTrans(store, s2, s3, JobKeys(stamp), {FinalKey(stamp), MetadataKey(stamp)});
    assert JobKeys(stamp) + {FinalKey(stamp), MetadataKey(stamp)} == JobKeys(stamp);
    assert s3[Iteration2Key(stamp)] == s2[Iteration2Key(stamp)];
  }

  /** An upload followed by the delivery of each scheduled trigger, in
      cooperative environments, answers 200 three times and schedules
      nothing after phase 3. */
  lemma ThreePhaseRunResponses(bucket: string, key: string, store: Store, e1: Env, e2: Env, e3: Env)
    requires Cooperative(e1) && Cooperative(e2) && Cooperative(e3)
    requires Stageable(Basename(key))
    ensures
      var o1 := LambdaHandler(UploadEvent(bucket, key), store, e1);
      var o2 := DeliverNext(o1, e2);
      var o3 := DeliverNext(o2, e3);
      && o1.response == Response(200, PhaseDone(1))
      && o2.response == Response(200, PhaseDone(2))
      && o3.response == Response(200, PhaseDone(3))
      && o3.triggers == []
  {
    var first := e1.clock.first;
    var stamp := IntText(first);
    var filename := Basename(key);
    var ts := JInt(first);
    assert StampText(ts) == stamp;
    var raw1 := ReplyField(e1.queryReply, "generated_text").value;
    var record1 := ValidateAnalysis(raw1, JStr(filename), e1.parse, e1.clock.second);
    var meta1 := InitialMetadata(filename, bucket, first);
    var o1 := LambdaHandler(UploadEvent(bucket, key), store, e1);
    RunStage1(bucket, key, store, e1);
    var o2 := DeliverNext(o1, e2);
    RunStage2(o1, e2, ts, stamp, JStr(filename), meta1, record1.fields);
    RunStage3(o2, e3, ts, stamp, JStr(filename), MarkIteration2(meta1));
  }

  /** The same run leaves the job's keys, and only them, written, and
      the phase-2 artifact carries what phase 1 decoded from its reply. */
  lemma ThreePhaseRun(bucket: string, key: string, store: Store, e1: Env, e2: Env, e3: Env)
    requires Cooperative(e1) && Cooperative(e2) && Cooperative(e3)
    requires Stageable(Basename(key))
    ensures
      var o3 := DeliverNext(DeliverNext(LambdaHandler(UploadEvent(bucket, key), store, e1), e2), e3);
      var stamp := IntText(e1.clock.first);
      var second := StoredObject(o3.store, Iteration2Key(stamp));
      && JobKeys(stamp) <= o3.store.Keys
      && WritesOnly(store, o3.store, JobKeys(stamp))
      && second.Some?
      && Field(second.value, "first_analysis") ==
           (match LoadsReply(ReplyField(e1.queryReply, "generated_text").value, e1.parse)
            case Ok(data) => data
            case Err(_) => JStr(""))
  {
    var first := e1.clock.first;
    var stamp := IntText(first);
    var filename := Basename(key);
    var ts := JInt(first);
    assert StampText(ts) == stamp;
    var raw1 := ReplyField(e1.queryReply, "generated_text").value;
    var record1 := ValidateAnalysis(raw1, JStr(filename), e1.parse, e1.clock.second);
    var meta1 := InitialMetadata(filename, bucket, first);
    var second := CrossValidateResults(FirstAnalysis(record1.fields), ReplyField(e2.queryReply, "generated_text").value, JStr(filename), e2.clock.first);

    var o1 := LambdaHandler(UploadEvent(bucket, key), store, e1);
    RunStage1(bucket, key, store, e1);
    var o2 := DeliverNext(o1, e2);
    RunStage2(o1, e2, ts, stamp, JStr(filename), meta1, record1.fields);
    var o3 := DeliverNext(o2, e3);
    RunStage3(o2, e3, ts, stamp, JStr(filename), MarkIteration2(meta1));
    ComposeStages(store, o1.store, o2.store, o3.store, stamp, second.fields);
    FirstAnalysisOfValidated(raw1, JStr(filename), e1.parse, e1.clock.second);
  }

  /** The same run leaves the job's metadata recording three finished
      phases, consistently, with the original timestamp and document and
      the moment phase 3 finished. */
  lemma ThreePhaseRunMetadata(bucket: string, key: string, store: Store, e1: Env, e2: Env, e3: Env)
    requires Cooperative(e1) && Cooperative(e2) && Cooperative(e3)
    requires Stageable(Basename(key))
    ensures
      var o3 := DeliverNext(DeliverNext(LambdaHandler(UploadEvent(bucket, key), store, e1), e2), e3);
      var meta := StoredObject(o3.store, MetadataKey(IntText(e1.clock.first)));
      && meta.Some? && Progress(meta.value) == JInt(3) && Completed(meta.value) && Consistent(meta.value)
      && Field(meta.value, "timestamp") == JInt(e1.clock.first)
      && Field(meta.value, "original_file") == JStr(Basename(key))
      && Field(meta.value, "completion_timestamp") == JInt(e3.clock.second)
  {
    var first := e1.clock.first;
    var stamp := IntText(first);
    var filename := Basename(key);
    var ts := JInt(first);
    assert StampText(ts) == stamp;
    var raw1 := ReplyField(e1.queryReply, "generated_text").value;
    var record1 := ValidateAnalysis(raw1, JStr(filename), e1.parse, e1.clock.second);
    var meta1 := InitialMetadata(filename, bucket, first);

    var o1 := LambdaHandler(UploadEvent(bucket, key), store, e1);
    RunStage1(bucket, key, store, e1);
    var o2 := DeliverNext(o1, e2);
    RunStage2(o1, e2, ts, stamp, JStr(filename), meta1, record1.fields);
    RunStage3(o2, e3, ts, stamp, JStr(filename), MarkIteration2(meta1));
    FinishedMetadata(filename, bucket, first, e3.clock.second);
  }
}

=== FILE: records.dfy ===
/** The JSON records the handler builds: the three phase artifacts, the
    error record, and the job's metadata record with its updates. */
module Records {
  import opened Wrappers
  import opened JsonValue

  /** The categories listed in every metadata record. */
  const NistCategories: seq<string> := [
    "Access Control (AC)",
    "Audit and Accountability (AU)",
    "Configuration Management (CM)",
    "Identification and Authentication (IA)",
    "System and Communications Protection (SC)",
    "System and Information Integrity (SI)"
  ]

  /** The categories as the JSON list stored in the metadata. */
  const NistCategoryList: seq<Json> := [
    JStr(NistCategories[0]), JStr(NistCategories[1]), JStr(NistCategories[2]),
    JStr(NistCategories[3]), JStr(NistCategories[4]), JStr(NistCategories[5])]

  /** An error record is recognised by its `error` field. */
  predicate IsErrorRecord(j: Json)
  {
    j.JObj? && "error" in j.fields
  }

  /** `error_handler`: the record that stands in for a failed step. */
  function ErrorHandler(context: string, details: string, now: int): (r: Json)
    ensures r.JObj? && r.fields.Keys == {"error", "details", "timestamp"}
    ensures r.fields["error"] == JStr(context) && r.fields["details"] == JStr(details)
    ensures r.fields["timestamp"] == JInt(now)
    ensures "generated_text" !in r.fields
  {
    JObj(map["error" := JStr(context), "details" := JStr(details), "timestamp" := JInt(now)])
  }

  /** What `json.loads` makes of the phase-1 reply text: a decoded value,
      or the message of the exception it raised. Anything but a string
      raises a `TypeError`. */
  function LoadsReply(raw: Json, parse: string -> Result<Json, string>): (r: Result<Json, string>)
    ensures !raw.JStr? ==> r.Err?
    ensures raw.JStr? ==> r == parse(raw.s)
  {
    match raw
    case JStr(text) => parse(text)
    case _ => Err("the JSON object must be str, bytes or bytearray, not " + TypeName(raw))
  }

  /** `validate_analysis`: the decoded reply wrapped as a preliminary
      result, or an error record when decoding raises. */
  function ValidateAnalysis(raw: Json, filename: Json, parse: string -> Result<Json, string>, now: int): (r: Json)
    ensures r.JObj?
    ensures IsErrorRecord(r) <==> LoadsReply(raw, parse).Err?
    ensures LoadsReply(raw, parse).Ok? ==>
      && r.fields.Keys == {"generated_text", "filename", "validation_status", "analysis_timestamp"}
      && r.fields["generated_text"] == LoadsReply(raw, parse).value
      && r.fields["filename"] == filename
      && r.fields["validation_status"] == JStr("PRELIMINARY")
      && r.fields["analysis_timestamp"] == JInt(now)
    ensures LoadsReply(raw, parse).Err? ==>
      && r.fields.Keys == {"error", "details", "timestamp"}
      && r.fields["error"] == JStr("Validation failed")
      && r.fields["details"] == JStr(LoadsReply(raw, parse).error)
      && r.fields["timestamp"] == JInt(now)
  {
    match LoadsReply(raw, parse)
    case Ok(data) =>
      JObj(map[
        "generated_text" := data,
        "filename" := filename,
        "validation_status" := JStr("PRELIMINARY"),
        "analysis_timestamp" := JInt(now)])
    case Err(message) => ErrorHandler("Validation failed", message, now)
  }

  /** What the second phase takes from the first phase's record:
      `analysis_data.get("generated_text", "")`. */
  function FirstAnalysis(record: map<string, Json>): Json
  {
    FieldOr(record, "generated_text", JStr(""))
  }

  /** The second phase sees exactly what the first phase decoded, and an
      empty text when the first phase stored an error record. */
  lemma FirstAnalysisOfValidated(raw: Json, filename: Json, parse: string -> Result<Json, string>, now: int)
    ensures ValidateAnalysis(raw, filename, parse, now).JObj?
    ensures FirstAnalysis(ValidateAnalysis(raw, filename, parse, now).fields) ==
      match LoadsReply(raw, parse)
      case Ok(data) => data
      case Err(_) => JStr("")
  {
  }

  /** `cross_validate_results`: both analyses side by side. */
  function CrossValidateResults(first: Json, second: Json, filename: Json, now: int): (r: Json)
    ensures r.JObj? && !IsErrorRecord(r)
    ensures r.fields.Keys == {"first_analysis", "second_analysis", "cross_validation", "filename", "analysis_timestamp"}
    ensures r.fields["first_analysis"] == first && r.fields["second_analysis"] == second
    ensures r.fields["cross_validation"] == JStr("COMPLETED")
    ensures r.fields["filename"] == filename && r.fields["analysis_timestamp"] == JInt(now)
  {
    JObj(map[
      "first_analysis" := first,
      "second_analysis" := second,
      "cross_validation" := JStr("COMPLETED"),
      "filename" := filename,
      "analysis_timestamp" := JInt(now)])
  }

  /** `generate_final_report`: the final reply as the job's report. */
  function GenerateFinalReport(validated: Json, filename: Json, now: int): (r: Json)
    ensures r.JObj? && !IsErrorRecord(r)
    ensures r.fields.Keys == {"final_analysis", "filename", "analysis_timestamp"}
    ensures r.fields["final_analysis"] == validated && r.fields["filename"] == filename
    ensures r.fields["analysis_timestamp"] == JInt(now)
  {
    JObj(map["final_analysis" := validated, "filename" := filename, "analysis_timestamp" := JInt(now)])
  }

  /** The metadata field that counts finished phases. */
  function Progress(meta: map<string, Json>): Json
  {
    Field(meta, "iterations_completed")
  }

  /** The metadata says the workflow has finished. */
  predicate Completed(meta: map<string, Json>)
  {
    Field(meta, "workflow_completed") == JBool(true)
  }

  /** A finished workflow has done three phases and records when it
      finished. */
  predicate Consistent(meta: map<string, Json>)
  {
    Completed(meta) ==> Progress(meta) == JInt(3) && "completion_timestamp" in meta
  }

  /** `meta` and `meta'` agree on every key outside `changed`. */
  ghost predicate SameOutside(meta: map<string, Json>, meta': map<string, Json>, changed: set<string>)
  {
    forall k :: k !in changed ==> (k in meta <==> k in meta') && (k in meta ==> meta[k] == meta'[k])
  }

  /** The metadata record written after the first phase. */
  function InitialMetadata(filename: string, bucket: string, timestamp: int): (r: map<string, Json>)
    ensures Progress(r) == JInt(1) && !Completed(r) && Consistent(r)
    ensures r.Keys == {"original_file", "original_bucket", "timestamp", "iterations_completed", "nist_categories_checked"}
    ensures r["timestamp"] == JInt(timestamp)
    ensures r["original_file"] == JStr(filename) && r["original_bucket"] == JStr(bucket)
  {
    map[
      "original_file" := JStr(filename),
      "original_bucket" := JStr(bucket),
      "timestamp" := JInt(timestamp),
      "iterations_completed" := JInt(1),
      "nist_categories_checked" := JArr(NistCategoryList)]
  }

  /** The second phase's update: the count becomes 2 and nothing else
      changes. The result is consistent exactly when the workflow was not
      already marked finished. */
  function MarkIteration2(meta: map<string, Json>): (r: map<string, Json>)
    ensures Progress(r) == JInt(2)
    ensures SameOutside(meta, r, {"iterations_completed"})
    ensures Completed(r) == Completed(meta)
    ensures Consistent(r) <==> !Completed(meta)
  {
    meta["iterations_completed" := JInt(2)]
  }

  /** The third phase's update: count 3, finished, and the finishing time;
      nothing else changes. */
  function MarkCompleted(meta: map<string, Json>, now: int): (r: map<string, Json>)
    ensures Progress(r) == JInt(3) && Completed(r) && Consistent(r)
    ensures Field(r, "completion_timestamp") == JInt(now)
    ensures SameOutside(meta, r, {"iterations_completed", "workflow_completed", "completion_timestamp"})
  {
    meta["iterations_completed" := JInt(3)]["workflow_completed" := JBool(true)]["completion_timestamp" := JInt(now)]
  }
}

=== FILE: service.dfy ===
/** The analysis service as the handler sees it, and everything else an
    invocation learns from the outside world. Every remote reply, the
    clock and the faults of the bucket and of the self-invocation are
    inputs here, so the workflow itself is a pure function. */
module Service {
  import opened Wrappers
  import opened JsonValue
  import opened Faults

  /** The number of readiness polls before giving up. */
  const MaxPolls: nat := 10

  /** Two successive readings of `int(time.time())` within one invocation. */
  datatype Clock = Clock(first: int, second: int)

  /** What one invocation observes. A reply is `None` when the request
      raised or its body was not JSON. */
  datatype Env = Env(
    sourceReadable: bool,                    // reading the uploaded object succeeds
    uploadReply: Option<Json>,               // reply to the upload request
    statusReply: nat -> Option<Json>,        // reply to the i-th status poll, from 0
    queryReply: Option<Json>,                // reply to this phase's analysis question
    parse: string -> Result<Json, string>,   // `json.loads`, or the message it raises
    clock: Clock,
    failingGets: set<string>,                // keys whose `get_object` raises although present
    failingPuts: set<string>,                // keys whose `put_object` raises
    invokeFails: bool)                       // the asynchronous self-invocation raises

  /** `requests.post(...).json().get(name)`: the named field of a JSON
      object reply (`None` when absent); raises when the request failed or
      the reply is not an object. */
  function ReplyField(reply: Option<Json>, name: string): (r: Result<Json, Fault>)
    ensures r.Ok? <==> reply.Some? && reply.value.JObj?
    ensures r.Ok? ==> r.value == Field(reply.value.fields, name)
    ensures reply.None? ==> r == Err(ServiceUnavailable)
  {
    match reply
    case None => Err(ServiceUnavailable)
    case Some(JObj(fields)) => Ok(Field(fields, name))
    case Some(_) => Err(ReplyNotAnObject)
  }

  /** A status reply reporting the document as processed. */
  predicate Processed(reply: Option<Json>)
  {
    ReplyField(reply, "status") == Ok(JStr("processed"))
  }

  /** A well-formed status reply reporting anything else. */
  predicate Pending(reply: Option<Json>)
  {
    ReplyField(reply, "status").Ok? && !Processed(reply)
  }

  /** How the readiness poll ended: confirmed after some number of
      attempts, given up after all of them, or interrupted by a raise. */
  datatype Readiness = Confirmed(attempts: nat) | Unconfirmed | PollFailed(attempt: nat, fault: Fault)

  /** The poll from attempt `i` on. */
  function PollFrom(replies: nat -> Option<Json>, i: nat): (r: Readiness)
    requires i <= MaxPolls
    ensures r.Confirmed? ==> i < r.attempts <= MaxPolls
    ensures r.PollFailed? ==> i <= r.attempt < MaxPolls
    decreases MaxPolls - i
  {
    if i == MaxPolls then Unconfirmed
    else match ReplyField(replies(i), "status")
      case Err(f) => PollFailed(i, f)
      case Ok(status) =>
        if status == JStr("processed") then Confirmed(i + 1) else PollFrom(replies, i + 1)
  }

  /** A confirmed poll read pending replies up to the one that reported
      the document processed. */
  lemma {:induction false} PollConfirmedReads(replies: nat -> Option<Json>, i: nat)
    requires i <= MaxPolls
    requires PollFrom(replies, i).Confirmed?
    ensures Processed(replies(PollFrom(replies, i).attempts - 1))
    ensures forall j :: i <= j < PollFrom(replies, i).attempts - 1 ==> Pending(replies(j))
    decreases MaxPolls - i
  {
    if ReplyField(replies(i), "status").value == JStr("processed") {
      assert PollFrom(replies, i).attempts - 1 == i;
    } else {
      assert PollFrom(replies, i) == PollFrom(replies, i + 1);
      PollConfirmedReads(replies, i + 1);
    }
  }

  /** A poll that gave up read only pending replies. */
  lemma {:induction false} PollUnconfirmedReads(replies: nat -> Option<Json>, i: nat)
    requires i <= MaxPolls
    requires PollFrom(replies, i).Unconfirmed?
    ensures forall j :: i <= j < MaxPolls ==> Pending(replies(j))
    decreases MaxPolls - i
  {
    if i < MaxPolls {
      PollUnconfirmedReads(replies, i + 1);
    }
  }

  /** A poll that raised read pending replies up to the malformed one. */
  lemma {:induction false} PollFailedReads(replies: nat -> Option<Json>, i: nat)
    requires i <= MaxPolls
    requires PollFrom(replies, i).PollFailed?
    ensures ReplyField(replies(PollFrom(replies, i).attempt), "status").Err?
    ensures forall j :: i <= j < PollFrom(replies, i).attempt ==> Pending(replies(j))
    decreases MaxPolls - i
  {
    if ReplyField(replies(i), "status").Ok? {
      PollFailedReads(replies, i + 1);
    }
  }

  /** The readiness poll of the first phase. */
  function AwaitReady(replies: nat -> Option<Json>): Readiness
  {
    PollFrom(replies, 0)
  }

  /** The poll is confirmed after `n` attempts exactly when the `n`-th reply
      is the first that is not pending and it reports the document
      processed, within the attempt limit. */
  lemma AwaitReadyConfirmedIff(replies: nat -> Option<Json>, n: nat)
    ensures AwaitReady(replies) == Confirmed(n) <==>
      && 1 <= n <= MaxPolls
      && Processed(replies(n - 1))
      && forall j :: 0 <= j < n - 1 ==> Pending(replies(j))
  {
    match AwaitReady(replies)
    case Confirmed(_) => PollConfirmedReads(replies, 0);
    case Unconfirmed => PollUnconfirmedReads(replies, 0);
    case PollFailed(_, _) => PollFailedReads(replies, 0);
  }

  /** The poll gives up exactly when all `MaxPolls` replies were
      well-formed and none reported the document processed. */
  lemma AwaitReadyUnconfirmedIff(replies: nat -> Option<Json>)
    ensures AwaitReady(replies).Unconfirmed? <==> forall j :: 0 <= j < MaxPolls ==> Pending(replies(j))
  {
    match AwaitReady(replies)
    case Confirmed(n) =>
      PollConfirmedReads(replies, 0);
      assert !Pending(replies(n - 1));
    case Unconfirmed => PollUnconfirmedReads(replies, 0);
    case PollFailed(k, _) =>
      PollFailedReads(replies, 0);
      assert !Pending(replies(k));
  }

  /** The poll as a loop: at most `MaxPolls` requests, leaving the loop at
      the first reply that reports the document processed. */
  method PollLoop(replies: nat -> Option<Json>) returns (r: Readiness)
    ensures r == AwaitReady(replies)
    ensures r.Confirmed? ==> 1 <= r.attempts <= MaxPolls
  {
    var i: nat := 0;
    while i < MaxPolls
      invariant i <= MaxPolls
      invariant PollFrom(replies, i) == AwaitReady(replies)
      decreases MaxPolls - i
    {
      var status := ReplyField(replies(i), "status");
      if status.Err? {
        return PollFailed(i, status.error);
      }
      if status.value == JStr("processed") {
        return Confirmed(i + 1);
      }
      i := i + 1;
    }
    return Unconfirmed;
  }
}

=== FILE: text.dfy ===
/** The two pieces of string handling the handler relies on: Python's
    `str()` of an integer (timestamps embedded in bucket keys) and
    `os.path.basename` (the document name taken from the uploaded key). */
module Text {

  /** The character for a decimal digit. */
  function DigitChar(d: nat): (c: char)
    requires d < 10
    ensures '0' <= c <= '9'
  {
    ('0' as int + d) as char
  }

  /** The value of a decimal digit character. */
  function DigitValue(c: char): nat
  {
    if '0' <= c <= '9' then c as int - '0' as int else 0
  }

  predicate IsDigit(c: char)
  {
    '0' <= c <= '9'
  }

  /** Decimal digits of a natural number, most significant first, as
      Python's `str()` prints them. */
  function Digits(n: nat): (s: string)
    ensures |s| >= 1
    ensures forall i :: 0 <= i < |s| ==> IsDigit(s[i])
    ensures (s[0] == '0') == (n == 0)
    decreases n
  {
    if n < 10 then [DigitChar(n)] else Digits(n / 10) + [DigitChar(n % 10)]
  }

  /** Reads a digit string back as a number: the inverse of `Digits`. */
  function DigitsValue(s: string): nat
    decreases |s|
  {
    if s == [] then 0 else DigitsValue(s[..|s| - 1]) * 10 + DigitValue(s[|s| - 1])
  }

  /** Reading back the printed digits yields the number printed. */
  lemma {:induction false} DigitsRoundTrip(n: nat)
    ensures DigitsValue(Digits(n)) == n
    decreases n
  {
    if n < 10 {
      assert Digits(n) == [DigitChar(n)];
      assert [DigitChar(n)][..0] == [];
    } else {
      var prefix := Digits(n / 10);
      var s := prefix + [DigitChar(n % 10)];
      assert s[..|s| - 1] == prefix;
      assert s[|s| - 1] == DigitChar(n % 10);
      DigitsRoundTrip(n / 10);
    }
  }

  /** Python's `str(n)` for an integer: an optional minus sign followed by
      the digits of its magnitude, without leading zeros. */
  function IntText(n: int): (s: string)
    ensures |s| >= 1
    ensures (s[0] == '-') == (n < 0)
  {
    if n < 0 then "-" + Digits(-n) else Digits(n)
  }

  /** Reads an integer printed by `IntText`. */
  function ReadInt(s: string): int
  {
    if |s| > 0 && s[0] == '-' then -(DigitsValue(s[1..]) as int) else DigitsValue(s)
  }

  /** Printing and reading back an integer is the identity. */
  lemma IntTextRoundTrip(n: int)
    ensures ReadInt(IntText(n)) == n
  {
    if n < 0 {
      assert IntText(n)[1..] == Digits(-n);
      DigitsRoundTrip(-n);
    } else {
      assert IntText(n)[0] != '-';
      DigitsRoundTrip(n);
    }
  }

  /** Distinct integers print as distinct texts, so distinct timestamps
      address distinct bucket keys. */
  lemma IntTextInjective(m: int, n: int)
    ensures IntText(m) == IntText(n) <==> m == n
  {
    if IntText(m) == IntText(n) {
      IntTextRoundTrip(m);
      IntTextRoundTrip(n);
    }
  }

  /** `os.path.basename(path)`: everything after the last `/`, or the
      whole path when it holds none. */
  function Basename(path: string): (name: string)
    ensures '/' !in name
    ensures |name| <= |path| && name == path[|path| - |name|..]
    ensures |name| < |path| ==> path[|path| - |name| - 1] == '/'
    decreases |path|
  {
    if path == [] then []
    else if path[|path| - 1] == '/' then []
    else
      var init := path[..|path| - 1];
      var rest := Basename(init);
      var name := rest + [path[|path| - 1]];
      assert init[|init| - |rest|..] + [path[|path| - 1]] == path[|path| - |name|..];
      name
  }
}

=== FILE: workflow.dfy ===
/** The three-phase workflow controller: the handler's entry dispatch, the
    first phase started by an upload, and the continuation state machine
    for phases 2 and 3. One invocation is a pure step from an event, the
    target bucket and the environment to a response, the new bucket and
    the self-invocations it scheduled. */
module Workflow {
  import opened Wrappers
  import opened JsonValue
  import opened Faults
  import opened Text
  import opened Bucket
  import opened Records
  import opened Service

  /** The payload of an asynchronous self-invocation. */
  datatype Trigger = Trigger(iteration: int, timestamp: Json, filename: Json)

  /** The response body, by the message it carries. */
  datatype Body =
    | PhaseDone(phase: nat)                           // "Iteration N completed ..."
    | UploadRejected(reply: Json)                     // the upload reply, echoed
    | InvalidIteration(iteration: Json)               // the unknown phase number, echoed
    | Failed(fault: Fault)                            // "Error: ..."
    | IterationFailed(iteration: Json, fault: Fault)  // "Error in iteration N: ..."

  datatype Response = Response(statusCode: int, body: Body)

  /** The result of one invocation: the response, the bucket afterwards
      (including every write made before a raise) and the scheduled
      continuations. */
  datatype Outcome = Outcome(response: Response, store: Store, triggers: seq<Trigger>)

  /** A raise caught by `lambda_handler` or `start_workflow`. */
  function Fail(fault: Fault, store: Store): Outcome
  {
    Outcome(Response(500, Failed(fault)), store, [])
  }

  /** A raise caught inside `handle_iteration`. */
  function FailIteration(iteration: Json, fault: Fault, store: Store): Outcome
  {
    Outcome(Response(500, IterationFailed(iteration, fault)), store, [])
  }

  /** `str(timestamp)` as interpolated into a key. Lists and objects are
      given a fixed marker rather than Python's `repr`. */
  function StampText(timestamp: Json): string
  {
    match timestamp
    case JInt(n) => IntText(n)
    case JStr(s) => s
    case JNull => "None"
    case JBool(b) => if b then "True" else "False"
    case JArr(_) => "[...]"
    case JObj(_) => "{...}"
  }

  /** `j[k]` on a JSON value: defined only for an object holding `k`. */
  function Member(j: Json, k: string): (r: Option<Json>)
    ensures r.Some? <==> j.JObj? && k in j.fields
  {
    if j.JObj? && k in j.fields then Some(j.fields[k]) else None
  }

  /** `event['Records'][0]['s3']['bucket']['name']` and
      `event['Records'][0]['s3']['object']['key']`, or `None` when a
      subscript raises. */
  function S3Location(event: map<string, Json>): Option<(Json, Json)>
  {
    if "Records" !in event then None
    else
      var records := event["Records"];
      if !records.JArr? || |records.items| == 0 then None
      else
        match Member(records.items[0], "s3")
        case None => None
        case Some(s3) =>
          match (Member(s3, "bucket"), Member(s3, "object"))
          case (Some(b), Some(o)) =>
            (match (Member(b, "name"), Member(o, "key"))
             case (Some(name), Some(key)) => Some((name, key))
             case _ => None)
          case _ => None
  }

  /** `lambda_handler`: an object event naming an `iteration` continues a
      job, any other object event must be an upload notification, and
      everything else answers 500. */
  function LambdaHandler(event: Json, store: Store, env: Env): (r: Outcome)
    ensures r.response.statusCode in {200, 400, 500}
    ensures r.triggers != [] ==> r.response.statusCode == 200 && |r.triggers| == 1
    ensures r.triggers != [] ==> r.triggers[0].iteration == 2 || r.triggers[0].iteration == 3
    ensures r.response.statusCode == 400 ==> r.store == store
  {
    match event
    case JObj(fields) =>
      if "iteration" in fields then HandleIteration(fields, store, env)
      else
        (match S3Location(fields)
         case Some((bucket, key)) => StartWorkflow(bucket, key, store, env)
         case None => Fail(MalformedEvent, store))
    case _ => Fail(MalformedEvent, store)
  }

  /** Whether `open('/tmp/' + name, 'w')` creates a regular file: the
      names `""`, `.` and `..` denote directories (an uploaded key ending in
      `/` has the empty basename), and a NUL character is rejected. */
  predicate Stageable(name: string)
  {
    name != "" && name != "." && name != ".." && '\0' !in name
  }

  /** `start_workflow`: upload the document, poll for readiness, run the
      first phase and schedule the second. */
  function StartWorkflow(bucket: Json, key: Json, store: Store, env: Env): (r: Outcome)
    ensures r.response.statusCode in {200, 400, 500}
    ensures r.response.statusCode == 200 <==> r.triggers != []
    ensures r.response.statusCode == 200 ==>
      key.JStr? && Stageable(Basename(key.s)) && r.triggers == [Trigger(2, JInt(env.clock.first), JStr(Basename(key.s)))]
    ensures r.response.statusCode == 400 ==> r.store == store
    ensures WritesOnly(store, r.store, {Iteration1Key(IntText(env.clock.first)), MetadataKey(IntText(env.clock.first))})
    ensures Iteration1Key(IntText(env.clock.first)) in env.failingPuts ==> r.store == store
    ensures Changed(store, r.store, MetadataKey(IntText(env.clock.first))) ==>
      && bucket.JStr? && key.JStr? && ReplyField(env.queryReply, "generated_text").Ok?
      && Iteration1Key(IntText(env.clock.first)) !in env.failingPuts
      && Iteration1Key(IntText(env.clock.first)) in r.store
      && r.store[Iteration1Key(IntText(env.clock.first))]
         == Doc(ValidateAnalysis(ReplyField(env.queryReply, "generated_text").value, JStr(Basename(key.s)), env.parse, env.clock.second))
      && StoredObject(r.store, MetadataKey(IntText(env.clock.first))) == Some(InitialMetadata(Basename(key.s), bucket.s, env.clock.first))
  {
    if !bucket.JStr? || !key.JStr? || !env.sourceReadable then Fail(SourceUnreadable, store)
    else if !Stageable(Basename(key.s)) then Fail(StagingFailed, store)
    else
      match ReplyField(env.uploadReply, "status_code")
      case Err(f) => Fail(f, store)
      case Ok(code) =>
        if code != JInt(200) then Outcome(Response(400, UploadRejected(env.uploadReply.value)), store, [])
        else
          match AwaitReady(env.statusReply)
          case PollFailed(_, f) => Fail(f, store)
          case _ => RunPhase1(bucket.s, Basename(key.s), store, env)
  }

  /** The first phase once the upload is accepted, whatever the poll
      concluded: the artifact, then the initial metadata, then the
      trigger for phase 2, all under one timestamp. */
  function RunPhase1(bucket: string, filename: string, store: Store, env: Env): (r: Outcome)
    ensures r.response.statusCode in {200, 500}
    ensures r.response.statusCode == 200 <==> r.triggers != []
    ensures r.response.statusCode == 200 ==> r.triggers == [Trigger(2, JInt(env.clock.first), JStr(filename))]
    ensures WritesOnly(store, r.store, {Iteration1Key(IntText(env.clock.first)), MetadataKey(IntText(env.clock.first))})
    ensures Iteration1Key(IntText(env.clock.first)) in env.failingPuts ==> r.store == store
    ensures Changed(store, r.store, MetadataKey(IntText(env.clock.first))) ==>
      && ReplyField(env.queryReply, "generated_text").Ok?
      && Iteration1Key(IntText(env.clock.first)) !in env.failingPuts
      && Iteration1Key(IntText(env.clock.first)) in r.store
      && r.store[Iteration1Key(IntText(env.clock.first))]
         == Doc(ValidateAnalysis(ReplyField(env.queryReply, "generated_text").value, JStr(filename), env.parse, env.clock.second))
      && StoredObject(r.store, MetadataKey(IntText(env.clock.first))) == Some(InitialMetadata(filename, bucket, env.clock.first))
  {
    var timestamp := env.clock.first;
    var stamp := IntText(timestamp);
    JobKeysDistinct(stamp);
    match ReplyField(env.queryReply, "generated_text")
    case Err(f) => Fail(f, store)
    case Ok(raw) =>
      CommitPhase1(store, Iteration1Key(stamp), ValidateAnalysis(raw, JStr(filename), env.parse, env.clock.second),
                   MetadataKey(stamp), InitialMetadata(filename, bucket, timestamp),
                   Trigger(2, JInt(timestamp), JStr(filename)), env)
  }

  /** The writes that close the first phase: the artifact, then the
      metadata, then the trigger for the next phase; a failing step stops
      the sequence with what was already written. */
  function CommitPhase1(store: Store, artifactKey: string, artifact: Json, metaKey: string, meta: map<string, Json>,
                        next: Trigger, env: Env): (r: Outcome)
    requires artifactKey != metaKey
    ensures r.response.statusCode in {200, 500}
    ensures r.response.statusCode == 200 <==> r.triggers != []
    ensures r.response.statusCode == 200 ==> r.response.body == PhaseDone(1) && r.triggers == [next]
    ensures WritesOnly(store, r.store, {artifactKey, metaKey})
    ensures artifactKey in env.failingPuts ==> r == Fail(PutFailed(artifactKey), store)
    ensures Changed(store, r.store, metaKey) ==>
      && artifactKey !in env.failingPuts
      && artifactKey in r.store && r.store[artifactKey] == Doc(artifact)
      && StoredObject(r.store, metaKey) == Some(meta)
    ensures artifactKey !in env.failingPuts && metaKey in env.failingPuts ==>
      r == Fail(PutFailed(metaKey), store[artifactKey := Doc(artifact)])
    ensures artifactKey !in env.failingPuts && metaKey !in env.failingPuts ==>
      r == Outcome(if env.invokeFails then Response(500, Failed(InvokeFailed)) else Response(200, PhaseDone(1)),
                   store[artifactKey := Doc(artifact)][metaKey := Doc(JObj(meta))],
                   if env.invokeFails then [] else [next])
  {
    match Put(store, artifactKey, artifact, env.failingPuts)
    case Err(f) => Fail(f, store)
    case Ok(s1) =>
      match Put(s1, metaKey, JObj(meta), env.failingPuts)
      case Err(f) => Fail(f, s1)
      case Ok(s2) =>
        if env.invokeFails then Fail(InvokeFailed, s2)
        else Outcome(Response(200, PhaseDone(1)), s2, [next])
  }

  /** `handle_iteration`: the three event fields are read before anything
      else (a missing one is caught by `lambda_handler`), then the phase
      number selects phase 2, phase 3, or a 400 with no side effect. */
  function HandleIteration(event: map<string, Json>, store: Store, env: Env): (r: Outcome)
    ensures r.response.statusCode in {200, 400, 500}
    ensures r.triggers != [] ==> r.response.statusCode == 200
    ensures r.triggers != [] ==>
      "iteration" in event && "timestamp" in event && "filename" in event
      && event["iteration"] == JInt(2) && r.triggers == [Trigger(3, event["timestamp"], event["filename"])]
    ensures r.response.statusCode == 400 <==>
      "iteration" in event && "timestamp" in event && "filename" in event
      && event["iteration"] != JInt(2) && event["iteration"] != JInt(3)
    ensures r.response.statusCode == 400 ==> r == Outcome(Response(400, InvalidIteration(event["iteration"])), store, [])
    ensures "timestamp" in event ==>
      WritesOnly(store, r.store, {Iteration2Key(StampText(event["timestamp"])), FinalKey(StampText(event["timestamp"])), MetadataKey(StampText(event["timestamp"]))})
    ensures "timestamp" !in event ==> r.store == store
  {
    if "iteration" !in event || "timestamp" !in event || "filename" !in event then Fail(MalformedEvent, store)
    else
      var iteration := event["iteration"];
      if iteration == JInt(2) then Phase2(event["timestamp"], event["filename"], store, env)
      else if iteration == JInt(3) then Phase3(event["timestamp"], event["filename"], store, env)
      else Outcome(Response(400, InvalidIteration(iteration)), store, [])
  }

  /** Reads the job's metadata record, which must decode to an object for
      the item assignments that follow. */
  function LoadMetadata(store: Store, stamp: string, failing: set<string>, parse: string -> Result<Json, string>): (r: Result<map<string, Json>, Fault>)
    ensures MetadataKey(stamp) !in store ==> r == Err(NoSuchKey(MetadataKey(stamp)))
    ensures
      && MetadataKey(stamp) in store && MetadataKey(stamp) !in failing
      && store[MetadataKey(stamp)].Doc? && store[MetadataKey(stamp)].json.JObj?
      ==> r == Ok(store[MetadataKey(stamp)].json.fields)
    ensures r.Err? ==> r.error in {NoSuchKey(MetadataKey(stamp)), GetFailed(MetadataKey(stamp)),
                                   Undecodable(MetadataKey(stamp)), NotAnObject(MetadataKey(stamp))}
  {
    match Load(store, MetadataKey(stamp), failing, parse)
    case Err(f) => Err(f)
    case Ok(JObj(meta)) => Ok(meta)
    case Ok(_) => Err(NotAnObject(MetadataKey(stamp)))
  }

  /** Phase 2: needs the phase-1 artifact, writes the phase-2 artifact,
      advances the metadata to 2 and schedules phase 3. */
  function Phase2(timestamp: Json, filename: Json, store: Store, env: Env): (r: Outcome)
    ensures r.response.statusCode in {200, 500}
    ensures r.response.statusCode == 200 <==> r.triggers != []
    ensures r.response.statusCode == 200 ==> r.triggers == [Trigger(3, timestamp, filename)]
    ensures Iteration1Key(StampText(timestamp)) !in store ==>
      r == FailIteration(JInt(2), NoSuchKey(Iteration1Key(StampText(timestamp))), store)
    ensures WritesOnly(store, r.store, {Iteration2Key(StampText(timestamp)), MetadataKey(StampText(timestamp))})
    ensures r.store != store ==> Iteration1Key(StampText(timestamp)) in store
    ensures Iteration2Key(StampText(timestamp)) in env.failingPuts ==> r.store == store
    ensures Changed(store, r.store, MetadataKey(StampText(timestamp))) ==>
      var stamp := StampText(timestamp);
      var data := Load(store, Iteration1Key(stamp), env.failingGets, env.parse);
      && data.Ok? && data.value.JObj? && ReplyField(env.queryReply, "generated_text").Ok?
      && Iteration2Key(stamp) !in env.failingPuts
      && Iteration2Key(stamp) in r.store
      && r.store[Iteration2Key(stamp)]
         == Doc(CrossValidateResults(FirstAnalysis(data.value.fields), ReplyField(env.queryReply, "generated_text").value, filename, env.clock.first))
      && StoredObject(r.store, MetadataKey(stamp)).Some?
      && Progress(StoredObject(r.store, MetadataKey(stamp)).value) == JInt(2)
  {
    var stamp := StampText(timestamp);
    JobKeysDistinct(stamp);
    var iteration := JInt(2);
    match Load(store, Iteration1Key(stamp), env.failingGets, env.parse)
    case Err(f) => FailIteration(iteration, f, store)
    case Ok(data) =>
      if !data.JObj? then FailIteration(iteration, NotAnObject(Iteration1Key(stamp)), store)
      else
        var first := FirstAnalysis(data.fields);
        match ReplyField(env.queryReply, "generated_text")
        case Err(f) => FailIteration(iteration, f, store)
        case Ok(second) =>
          CommitPhase2(store, stamp, CrossValidateResults(first, second, filename, env.clock.first), Trigger(3, timestamp, filename), env)
  }

  /** The writes that close phase 2: the artifact, then the metadata read
      back and advanced to two phases, then the trigger for phase 3. */
  function CommitPhase2(store: Store, stamp: string, artifact: Json, next: Trigger, env: Env): (r: Outcome)
    ensures r.response.statusCode in {200, 500}
    ensures r.response.statusCode == 200 <==> r.triggers != []
    ensures r.response.statusCode == 200 ==> r.response.body == PhaseDone(2) && r.triggers == [next]
    ensures r.response.statusCode == 500 ==> r.response.body.IterationFailed? && r.response.body.iteration == JInt(2)
    ensures WritesOnly(store, r.store, {Iteration2Key(stamp), MetadataKey(stamp)})
    ensures Iteration2Key(stamp) in env.failingPuts ==> r == FailIteration(JInt(2), PutFailed(Iteration2Key(stamp)), store)
    ensures Changed(store, r.store, MetadataKey(stamp)) ==>
      && Iteration2Key(stamp) !in env.failingPuts
      && Iteration2Key(stamp) in r.store && r.store[Iteration2Key(stamp)] == Doc(artifact)
      && StoredObject(r.store, MetadataKey(stamp)).Some?
      && Progress(StoredObject(r.store, MetadataKey(stamp)).value) == JInt(2)
    ensures Iteration2Key(stamp) !in env.failingPuts ==>
      var written := store[Iteration2Key(stamp) := Doc(artifact)];
      var meta := LoadMetadata(store, stamp, env.failingGets, env.parse);
      && Iteration2Key(stamp) in r.store && r.store[Iteration2Key(stamp)] == Doc(artifact)
      && (meta.Err? ==> r == FailIteration(JInt(2), meta.error, written))
      && (meta.Ok? && MetadataKey(stamp) in env.failingPuts ==>
            r == FailIteration(JInt(2), PutFailed(MetadataKey(stamp)), written))
      && (meta.Ok? && MetadataKey(stamp) !in env.failingPuts ==>
            r.store == written[MetadataKey(stamp) := Doc(JObj(MarkIteration2(meta.value)))]
            && (env.invokeFails ==> r.response == Response(500, IterationFailed(JInt(2), InvokeFailed)) && r.triggers == []))
  {
    JobKeysDistinct(stamp);
    var iteration := JInt(2);
    match Put(store, Iteration2Key(stamp), artifact, env.failingPuts)
    case Err(f) => FailIteration(iteration, f, store)
    case Ok(s1) =>
      match LoadMetadata(s1, stamp, env.failingGets, env.parse)
      case Err(f) => FailIteration(iteration, f, s1)
      case Ok(meta) =>
        match Put(s1, MetadataKey(stamp), JObj(MarkIteration2(meta)), env.failingPuts)
        case Err(f) => FailIteration(iteration, f, s1)
        case Ok(s2) =>
          if env.invokeFails then FailIteration(iteration, InvokeFailed, s2)
          else Outcome(Response(200, PhaseDone(2)), s2, [next])
  }

  /** Phase 3: needs the phase-2 artifact (whose content the final query
      does not use), writes the report under `final/`, marks the metadata
      finished and schedules nothing. */
  function Phase3(timestamp: Json, filename: Json, store: Store, env: Env): (r: Outcome)
    ensures r.response.statusCode in {200, 500}
    ensures r.triggers == []
    ensures Iteration2Key(StampText(timestamp)) !in store ==>
      r == FailIteration(JInt(3), NoSuchKey(Iteration2Key(StampText(timestamp))), store)
    ensures WritesOnly(store, r.store, {FinalKey(StampText(timestamp)), MetadataKey(StampText(timestamp))})
    ensures r.store != store ==> Iteration2Key(StampText(timestamp)) in store
    ensures FinalKey(StampText(timestamp)) in env.failingPuts ==> r.store == store
    ensures Changed(store, r.store, MetadataKey(StampText(timestamp))) ==>
      var stamp := StampText(timestamp);
      && ReplyField(env.queryReply, "generated_text").Ok?
      && FinalKey(stamp) !in env.failingPuts
      && FinalKey(stamp) in r.store
      && r.store[FinalKey(stamp)] == Doc(GenerateFinalReport(ReplyField(env.queryReply, "generated_text").value, filename, env.clock.first))
      && StoredObject(r.store, MetadataKey(stamp)).Some?
      && Progress(StoredObject(r.store, MetadataKey(stamp)).value) == JInt(3)
      && Completed(StoredObject(r.store, MetadataKey(stamp)).value)
  {
    var stamp := StampText(timestamp);
    JobKeysDistinct(stamp);
    var iteration := JInt(3);
    match Load(store, Iteration2Key(stamp), env.failingGets, env.parse)
    case Err(f) => FailIteration(iteration, f, store)
    case Ok(_) =>
      match ReplyField(env.queryReply, "generated_text")
      case Err(f) => FailIteration(iteration, f, store)
      case Ok(validated) =>
        CommitPhase3(store, stamp, GenerateFinalReport(validated, filename, env.clock.first), env)
  }

  /** The writes that close phase 3: the report, then the metadata read
      back and marked finished at the second clock reading. */
  function CommitPhase3(store: Store, stamp: string, report: Json, env: Env): (r: Outcome)
    ensures r.response.statusCode in {200, 500}
    ensures r.triggers == []
    ensures r.response.statusCode == 200 ==> r.response.body == PhaseDone(3)
    ensures r.response.statusCode == 500 ==> r.response.body.IterationFailed? && r.response.body.iteration == JInt(3)
    ensures WritesOnly(store, r.store, {FinalKey(stamp), MetadataKey(stamp)})
    ensures FinalKey(stamp) in env.failingPuts ==> r == FailIteration(JInt(3), PutFailed(FinalKey(stamp)), store)
    ensures Changed(store, r.store, MetadataKey(stamp)) ==>
      && FinalKey(stamp) !in env.failingPuts
      && FinalKey(stamp) in r.store && r.store[FinalKey(stamp)] == Doc(report)
      && StoredObject(r.store, MetadataKey(stamp)).Some?
      && Progress(StoredObject(r.store, MetadataKey(stamp)).value) == JInt(3)
      && Completed(StoredObject(r.store, MetadataKey(stamp)).value)
    ensures FinalKey(stamp) !in env.failingPuts ==>
      var written := store[FinalKey(stamp) := Doc(report)];
      var meta := LoadMetadata(store, stamp, env.failingGets, env.parse);
      && FinalKey(stamp) in r.store && r.store[FinalKey(stamp)] == Doc(report)
      && (meta.Err? ==> r == FailIteration(JInt(3), meta.error, written))
      && (meta.Ok? && MetadataKey(stamp) in env.failingPuts ==>
            r == FailIteration(JInt(3), PutFailed(MetadataKey(stamp)), written))
      && (meta.Ok? && MetadataKey(stamp) !in env.failingPuts ==>
            r == Outcome(Response(200, PhaseDone(3)), written[MetadataKey(stamp) := Doc(JObj(MarkCompleted(meta.value, env.clock.second)))], []))
  {
    JobKeysDistinct(stamp);
    var iteration := JInt(3);
    match Put(store, FinalKey(stamp), report, env.failingPuts)
    case Err(f) => FailIteration(iteration, f, store)
    case Ok(s1) =>
      match LoadMetadata(s1, stamp, env.failingGets, env.parse)
      case Err(f) => FailIteration(iteration, f, s1)
      case Ok(meta) =>
        match Put(s1, MetadataKey(stamp), JObj(MarkCompleted(meta, env.clock.second)), env.failingPuts)
        case Err(f) => FailIteration(iteration, f, s1)
        case Ok(s2) => Outcome(Response(200, PhaseDone(3)), s2, [])
  }

  /** A continuation event with the three fields `handle_iteration` reads. */
  function ContinueEvent(iteration: Json, timestamp: Json, filename: Json): Json
  {
    JObj(map["iteration" := iteration, "timestamp" := timestamp, "filename" := filename])
  }

  /** The event a scheduled trigger delivers: its JSON payload. */
  function TriggerEvent(t: Trigger): Json
  {
    ContinueEvent(JInt(t.iteration), t.timestamp, t.filename)
  }

  /** An upload notification for `key` in `bucket`, in the shape the
      handler subscripts. */
  function UploadEvent(bucket: string, key: string): Json
  {
    JObj(map["Records" := JArr([
      JObj(map["s3" := JObj(map[
        "bucket" := JObj(map["name" := JStr(bucket)]),
        "object" := JObj(map["key" := JStr(key)])])])])])
  }

  /** The asynchronous dispatcher: the first scheduled trigger, if any, is
      delivered as the next invocation's event. */
  function DeliverNext(o: Outcome, env: Env): (r: Outcome)
    ensures o.triggers == [] ==> r == o
  {
    if o.triggers == [] then o else LambdaHandler(TriggerEvent(o.triggers[0]), o.store, env)
  }

  /** The job an invocation works on: the stamp its keys are built from. */
  function EventStamp(event: Json, env: Env): string
  {
    if event.JObj? && "iteration" in event.fields then
      if "timestamp" in event.fields then StampText(event.fields["timestamp"]) else ""
    else IntText(env.clock.first)
  }
}

=== FILE: wrappers.dfy ===
/** Failure-carrying wrappers used throughout the model. */
module Wrappers {

  /** A value that may be missing, like Python's `None`. */
  datatype Option<+T> = None | Some(value: T)

  /** Either a computed value or the reason the computation raised. */
  datatype Result<+T, +E> = Ok(value: T) | Err(error: E)
}
